=== FILE: README.md ===
# Housing listings: lightbox, sanitisers and CSV converters in Dafny

The Housing site is a static page. It fetches a JSON list of property records and renders them as cards. Each card has an enquiry link and a "View" button, and the button opens a full-screen image viewer (the lightbox). The records are produced from a spreadsheet export by one of two alternative converters: a Node script and a Python script.

This project models the pure logic at the centre of that system and proves properties of it.

- **Lightbox** (`lightbox.dfy`): the viewer's state (image list, position, overlay shown, displayed `src`, page scroll lock). It covers opening with clamping, closing, forward and back navigation with wrap-around, and the keyboard dispatcher. All transitions are total functions over an immutable state.
- **Escape** (`escape.dfy`): `escapeHtml`, the five-character entity substitution, and the decoding that undoes it. The `data-images` attribute relies on this round trip.
- **Card** (`card.dfy`): the digit filter behind the enquiry link, and the price label of `formatCurrency`. The label covers the empty case and the naira-sign versus currency-code prefix; digit grouping is left abstract.
- **Text** (`text.dfy`): string operations shared by the converters:
  - comma deletion;
  - JavaScript `trim()` and Python `strip()`, whose whitespace sets differ;
  - ASCII lower-casing;
  - splitting on `;`;
  - the `images` cleaning: strip every piece, drop the empty ones.
- **Record** (`record.dfy`): the parsed CSV row as a map from column to cell, the 21-field property record, and its key order when serialised.
- **ConvertJs** (`convert_js.dfy`) and **ConvertPy** (`convert_py.dfy`): the two converters, modelled separately.
- **Divergence** (`divergence.dfy`): where the two converters agree and where they differ.
- **Values** (`values.dfy`): the optional value, the IEEE number a parser returns (finite, NaN or an infinity), and the JSON values. It also holds the generic map and filter on sequences.

The decimal parsers are parameters:
- `numberOf: string -> Float` stands for JavaScript's `Number(string)`, which never fails.
- `floatOf: string -> Option<Float>` stands for Python's `float(str)`, with `None` where it raises.

Everything around the parsers is modelled exactly: the null and empty rules, and comma deletion.

The two converters are alternatives for the same job. Their own code differs in two places, and each model follows its own converter:
- `featured`: the Node converter counts only "true" and "1" (convert-csv-to-json.js:24, 54). The Python converter also counts "yes" and "y" (convert_csv_to_json.py:14). See `Divergence.YesOnlyInPython`.
- Non-finite numbers: the Node converter turns a NaN or infinite parse into null (convert-csv-to-json.js:32). The Python converter passes an infinity or NaN from `float` through (convert_csv_to_json.py:21). See `Divergence.InfinityOnlyInPython`.

The library primitives they call differ in two more places:
- Whitespace: JavaScript's `trim()` removes the byte order mark U+FEFF, and Python's `strip()` removes U+1C-U+1F and U+85 instead. See `Divergence.ByteOrderMarkJs`, `Divergence.ByteOrderMarkPy` and `Text.SpacesDisagree`.
- The empty string: a cell holding only commas becomes `""`. `Number("")` gives 0 there, while `float("")` raises. See `Divergence.LoneCommaDiffers`.

## Model

| member | source | states |
|---|---|---|
| Escape.EscapeHtml | script-housing.js:7 | A missing or empty value gives the empty text; the output never contains `<`, `>`, `"` or `'`; decoding the character references gives the value back, which the `data-images` attribute relies on. |
| Escape.EscapePlain | script-housing.js:7 | Text without any of the five special characters is copied unchanged. |
| Escape.EscapeAppend | script-housing.js:7 | Escaping works character by character: it distributes over concatenation. |
| Escape.EscapeTag | script-housing.js:7 | A tag such as `<script>` in a field comes out as `&lt;script&gt;`: text, not markup. |
| Escape.UnescapeEscape | script-housing.js:7 | Decoding the five references of an escaped text gives back exactly the text, so the `data-images` JSON reaches `JSON.parse` (lines 84, 107, 115) unchanged. |
| Escape.EscapeInjective | script-housing.js:7 | Two different texts never escape to the same output. |
| Text.Digits | script-housing.js:95 | `replace(/[^0-9]/g, '')` keeps only digits, keeps every digit as often as it occurs, and keeps their order. |
| Card.EnquiryPhone | script-housing.js:95 | The phone part of the link holds only `0`-`9`. It is an in-order subsequence of `contact_phone` with every digit's count preserved, and it is empty when the phone is absent. |
| Card.DigitsUnique | script-housing.js:95 | Any digit string that is a subsequence of the phone and has the same digit counts is exactly the filter's output, so the properties above pin the filter down. |
| Card.EnquiryLink | script-housing.js:95 | The link is `https://wa.me/` followed by exactly the filtered phone digits (`Card.EnquiryPhone`), so just the prefix when the phone is absent. |
| Card.FormatCurrency | script-housing.js:8-12 | The label is empty exactly for a null, undefined or `''` amount. Otherwise it is the naira sign and the grouped amount for `NGN`, and the currency text, a space and the grouped amount for any other currency. |
| Lightbox.Open | script-housing.js:23-31 | Opening always gives a valid, shown, scroll-locked state. A missing or empty list gives `[]`, position 0 and `src` `''`. A non-empty list is kept and the position is clamped into it: below 0 gives 0, past the end gives the last. |
| Lightbox.Close | script-housing.js:32-39 | Whatever the prior state, closing hides the overlay, unlocks scrolling and resets to `[]`, position 0 and `src` `''`. |
| Lightbox.CloseIdempotent | script-housing.js:32-39 | Closing twice is closing once, and the result is the initial state. |
| Lightbox.JsRem | script-housing.js:42 | JavaScript's `%` agrees with the mathematical remainder on non-negative operands, and is non-positive for a negative dividend. |
| Lightbox.WrapForward | script-housing.js:42 | `(i + 1) % n` from a valid position is the successor, or 0 after the last. |
| Lightbox.WrapBack | script-housing.js:47 | `(i - 1 + n) % n` from a valid position is the predecessor, or the last before 0. |
| Lightbox.Next | script-housing.js:40-44 | On an empty list nothing changes. Otherwise validity is preserved: the position moves one forward, wrapping to 0, and `src` is the image there. The list, overlay and scroll lock are untouched. |
| Lightbox.Prev | script-housing.js:45-49 | On an empty list nothing changes. Otherwise validity is preserved: the position moves one back, wrapping to the last, and `src` is the image there. The list, overlay and scroll lock are untouched. |
| Lightbox.NextPrevInverse | script-housing.js:40-49 | From a valid state, forward then back and back then forward both return to the same state. |
| Lightbox.NextNIndex | script-housing.js:40-44 | Up to one full turn, `k` forward steps land `k` positions further on, wrapping once, with `src` following. |
| Lightbox.NextFullCycle | script-housing.js:40-44 | Stepping forward once per image returns to the starting state. |
| Lightbox.NextNPeriodic | script-housing.js:40-44 | Forward navigation is periodic with the length of the list. |
| Lightbox.ThreeImageWalk | script-housing.js:40-44 | With three images, forward steps visit positions 0, 1, 2 and wrap to 0, showing the matching image each time. |
| Lightbox.EmptyNavigation | script-housing.js:40-49 | Opened with no images, the arrow buttons and arrow keys change nothing. |
| Lightbox.Keydown | script-housing.js:146-151 | Keys are ignored unless the overlay is shown. When it is shown, Escape closes, ArrowRight is `lbNext`, ArrowLeft is `lbPrev`, and any other key changes nothing. The three sequential tests amount to this exclusive dispatch. |
| Lightbox.RunValid | script-housing.js:20-49 | Starting from a valid state, every sequence of opens, closes, backdrop clicks, arrow buttons and keys leaves the viewer valid. |
| Lightbox.InitialValid | script-housing.js:20-21 | The state before any interaction is valid and not shown. |
| Text.DeleteCommas | convert-csv-to-json.js:31 | `replace(/,/g, '')` leaves no comma, keeps every other character as often as it occurs, and keeps their order. |
| Text.TrimStart | convert-csv-to-json.js:23 | Only a leading run of whitespace is removed: the text is that whitespace followed by the result, and the result does not start with whitespace. |
| Text.TrimEnd | convert-csv-to-json.js:23 | Only a trailing run of whitespace is removed: the text is the result followed by that whitespace, and the result does not end with whitespace. |
| Text.TrimStartAgree | convert_csv_to_json.py:13 | On text without a disputed whitespace character, both languages remove the same leading run. |
| Text.TrimEndAgree | convert_csv_to_json.py:13 | On text without a disputed whitespace character, both languages remove the same trailing run. |
| Text.SplitNoSep | convert-csv-to-json.js:38 | A text without the separator splits into itself alone. |
| Text.DeleteCommasIdempotent | convert-csv-to-json.js:31 | Deleting commas twice is deleting them once. |
| Text.DeleteCommasNoComma | convert-csv-to-json.js:31 | A text without commas is unchanged by comma deletion. |
| Text.DeleteCommasOnlyCommas | convert_csv_to_json.py:21 | A text of commas only becomes the empty string. |
| Text.Strip | convert-csv-to-json.js:23 | `trim()` / `strip()` gives a text no longer than the input that neither starts nor ends with whitespace. |
| Text.StripSurround | convert-csv-to-json.js:23 | Only whitespace is cut: the text is some whitespace, then its strip, then some whitespace. With `Text.Strip`'s contract this leaves one possible result, so a blank text strips to `''` and any other to the run from its first to its last non-whitespace character. |
| Text.StripFixed | convert-csv-to-json.js:23 | A text without surrounding whitespace is its own strip. |
| Text.StripIdempotent | convert-csv-to-json.js:23 | Stripping twice is stripping once. |
| Text.StripKeepsOut | convert-csv-to-json.js:38 | Stripping never introduces a character, so a trimmed piece of a `;`-split has no `;`. |
| Text.SpacesDisagree | convert_csv_to_json.py:13 | JavaScript's `trim()` and Python's `strip()` disagree exactly on U+FEFF (JavaScript only) and on U+1C-U+1F and U+85 (Python only). |
| Text.StripAgree | convert_csv_to_json.py:13 | On text without such a character, `trim()` and `strip()` coincide. |
| Text.LowerAscii | convert-csv-to-json.js:23 | Lower-casing keeps the length, leaves no capital ASCII letter, and changes no other character. |
| Text.SplitOn | convert-csv-to-json.js:38 | `split(';')` gives at least one piece, and no piece contains `;`. |
| Text.JoinSplit | convert-csv-to-json.js:38 | Joining the pieces of a split with the separator gives back the text. |
| Text.SplitJoin | convert-csv-to-json.js:38 | Splitting a join of separator-free pieces (at least one) gives back the pieces. |
| Text.SplitAround | convert-csv-to-json.js:38 | The pieces of `a;b` are the pieces of `a` followed by those of `b`. |
| Text.SplitOnChars | convert-csv-to-json.js:38 | Every character of a piece is a character of the split text. |
| Text.CleanPieces | convert-csv-to-json.js:38 | Trimming the pieces and dropping empty ones leaves only non-empty, trimmed entries, never more than there were pieces. |
| Text.CleanPiecesSingle | convert-csv-to-json.js:38 | One piece is kept as its strip when that is not empty, and dropped when the piece is blank. With `Text.CleanPiecesAppend`, this fixes the result for every list of pieces. |
| Text.CleanPiecesAppend | convert-csv-to-json.js:38 | Cleaning keeps order: cleaning two runs of pieces is cleaning each. |
| Text.CleanPiecesFixed | convert-csv-to-json.js:38 | Cleaning a list of non-empty, trimmed entries changes nothing. |
| Text.CleanPiecesKeepsOut | convert-csv-to-json.js:38 | A character absent from every piece is absent from every cleaned entry. |
| Text.CleanPiecesAgree | convert_csv_to_json.py:27 | Both languages clean pieces alike when the pieces lack the characters their whitespace sets disagree on. |
| Text.ImagePieces | convert-csv-to-json.js:38 | Every image entry is non-empty, trimmed and free of `;`. |
| Text.ImagePiecesEmpty | convert-csv-to-json.js:37-38 | An empty `images` field gives `[]`. |
| Text.ImagePiecesOne | convert-csv-to-json.js:38 | A text without `;` whose strip is not empty is read as the single entry of its strip. |
| Text.ImagePiecesBlank | convert-csv-to-json.js:38 | A segment that is empty or whitespace only yields no entry. |
| Text.StripPadded | convert-csv-to-json.js:38 | One blank on each side of a non-empty trimmed text is stripped away, leaving the text. |
| Text.ImagePiecesPadded | convert-csv-to-json.js:38 | A lone entry written with a blank on each side is read as the entry alone. |
| Text.ImagePiecesSingle | convert-csv-to-json.js:38 | A trimmed entry without `;` is read as itself. |
| Text.ImagePiecesConcat | convert-csv-to-json.js:38 | The entries of `a;b` are the entries of `a` followed by those of `b`, in source order. |
| Text.ImagePiecesIdempotent | convert_csv_to_json.py:27 | Re-splitting the `;`-join of the entries gives back the same entries. |
| Text.ImagePiecesAgree | convert_csv_to_json.py:27 | On text without the disputed whitespace characters, both languages read the same image list. |
| Record.ToJson | convert-csv-to-json.js:39-61 | A serialised record has one member for each of the 21 keys, in the order of the object literal; `Record.JsonRoundTrip` ties each key to its own field. |
| Record.JsonRoundTrip | convert-csv-to-json.js:39-61 | Reading a serialised record back gives the record: each key carries its own field's value (`type` the property type, `featured` the flag, `lat` and `lng` in place). |
| Record.ToJsonInjective | convert_csv_to_json.py:34-56 | Distinct records serialise to distinct objects. |
| Record.ReadByKey | script-housing.js:79-95 | In an object keyed like a record, looking up a key finds the member at that key's position, so reading by key agrees with `FromJson`. |
| Record.LookupAt | convert-csv-to-json.js:39-61 | Looking up a name that no earlier member carries finds the member that carries it. |
| Record.KeysDistinct | convert-csv-to-json.js:39-61 | The 21 keys are pairwise distinct. |
| ConvertJs.ToBool | convert-csv-to-json.js:21-27 | Undefined gives `false`. The result is `true` exactly for the normalised texts "true" and "1", and `false` exactly for undefined, "false" and "0". Any other text is passed through as its normalised form. |
| ConvertJs.Featured | convert-csv-to-json.js:54 | `toBool(...) === true` holds exactly when the value is present and normalises to "true" or "1"; a passed-through text never counts. |
| ConvertJs.FeaturedOf | convert-csv-to-json.js:23-24 | A text without surrounding whitespace is featured exactly when its lower-casing is "true" or "1". |
| ConvertJs.FeaturedSpellings | convert-csv-to-json.js:24 | "TRUE" and "1" are featured; a missing value is not. |
| ConvertJs.NotFeaturedSpellings | convert-csv-to-json.js:25 | "false" and "0" are not featured. |
| ConvertJs.YesNotFeatured | convert-csv-to-json.js:54 | "yes" is not featured by this converter. |
| ConvertJs.ToNumber | convert-csv-to-json.js:29-33 | Undefined and `''` give null. The result is never NaN or infinite. A value is returned exactly when the parse of the comma-free text is finite, and it is that parse. |
| ConvertJs.ToNumberCommaBlind | convert-csv-to-json.js:31 | Two non-empty texts with the same characters apart from commas convert alike. |
| ConvertJs.ToNumberIgnoresCommas | convert-csv-to-json.js:31 | Deleting the commas first changes nothing, unless nothing else is left. |
| ConvertJs.Images | convert-csv-to-json.js:37-38 | A missing or empty `images` cell gives `[]`. Otherwise the result is the cell read by `Text.ImagePieces` with `trim()`: split at `;`, each piece trimmed, blank pieces dropped. Every entry is non-empty, trimmed and free of `;`. |
| ConvertJs.ToRecord | convert-csv-to-json.js:39-61 | `featured` is strictly boolean and true exactly for "true" or "1". No number field is NaN or infinite. A missing or empty price gives null. Which column each field comes from is stated by `ConvertJs.ToRecordFields`, `ConvertJs.ToRecordNumbers` and `ConvertJs.ToRecordFeaturedImages`. |
| ConvertJs.ToRecordFields | convert-csv-to-json.js:40-58 | Each of the 13 text fields is copied from its own column: the cell, or `''` when it is missing or empty. |
| ConvertJs.ToRecordNumbers | convert-csv-to-json.js:46-60 | Each of the six number fields is `toNumber` of its own column's cell. |
| ConvertJs.ToRecordFeaturedImages | convert-csv-to-json.js:37-56 | `featured` is `toBool(...) === true` of the `featured` cell. `images` is the cleaned `;`-split of the `images` cell, so every entry is non-empty, trimmed and free of `;`. |
| ConvertJs.Convert | convert-csv-to-json.js:35 | One record per parsed row, in row order. |
| ConvertJs.ConvertAppend | convert-csv-to-json.js:35 | Converting two batches of rows gives the conversion of their concatenation. |
| ConvertPy.ToBool | convert_csv_to_json.py:11-16 | `None` gives `False`. The result is `True` exactly when the stripped, lower-cased text is "true", "1", "yes" or "y", and `False` for the four false spellings and everything else. |
| ConvertPy.ToBoolOf | convert_csv_to_json.py:13-14 | A text without surrounding whitespace is true exactly when its lower-casing is one of the four true spellings. |
| ConvertPy.TrueSpellingsHold | convert_csv_to_json.py:14 | "TRUE", "True", "true", "1", "YES", "Yes", "yes", "Y" and "y" are all true. |
| ConvertPy.NotASpelling | convert_csv_to_json.py:14-15 | A text whose first character is neither a lower-case letter nor `0`/`1` is no spelling, true or false. |
| ConvertPy.ToNumber | convert_csv_to_json.py:18-23 | `None` and `''` give `None`. Any other text gives `float` of the text with its commas deleted, which is `None` where `float` raises. |
| ConvertPy.ToNumberCommaBlind | convert_csv_to_json.py:21 | Two non-empty texts with the same characters apart from commas convert alike. |
| ConvertPy.ToNumberOnlyCommas | convert_csv_to_json.py:21 | A non-empty text of commas only reaches `float` as the empty string. |
| ConvertPy.SplitImages | convert_csv_to_json.py:25-27 | An empty text gives `[]`, which is also what splitting `""` gives. Any text gives its `Text.ImagePieces` reading with `strip()`: split at `;`, each piece stripped, blank pieces dropped. |
| ConvertPy.SplitImagesConcat | convert_csv_to_json.py:27 | The images of `a;b` are those of `a` followed by those of `b`, in source order. |
| ConvertPy.SplitImagesIdempotent | convert_csv_to_json.py:27 | Re-splitting the `;`-join of `split_images(s)` gives back the same list. |
| ConvertPy.ToRecord | convert_csv_to_json.py:34-56 | `featured` is true exactly for the four true spellings. A missing or empty price gives `None`, and any other price is the `float` of its comma-free text. Which column each field comes from is stated by `ConvertPy.ToRecordFields`. |
| ConvertPy.ToRecordFields | convert_csv_to_json.py:34-56 | Each field comes from its own column. The 13 text fields are `row.get(col, '')`. The six number fields are `to_number` of their own cells. `featured` is `to_bool` of the `featured` cell. `images` is `split_images` of the `images` cell. |
| Values.MapLoop | convert_csv_to_json.py:33-34 | Appending one result per row in a loop builds the map over the rows. |
| ConvertPy.Convert | convert_csv_to_json.py:29-57 | One record per data row, in row order, each built by `ToRecord`. |
| Divergence.TextFieldsAgree | convert_csv_to_json.py:35-55 | For every row, the two converters' 13 text fields are the same. |
| Divergence.NormalAgree | convert_csv_to_json.py:13 | Without the disputed whitespace characters, both converters normalise a `featured` text alike. |
| Divergence.FeaturedRelation | convert_csv_to_json.py:14 | Without the disputed whitespace characters, Python's `to_bool` is true exactly when the JavaScript record is featured or the text normalises to "yes" or "y". |
| Divergence.YesOnlyInPython | convert_csv_to_json.py:14 | "yes" is featured by the Python converter and not by the JavaScript one. |
| Divergence.ByteOrderMarkJs | convert-csv-to-json.js:23 | A byte order mark in front of any text is stripped by `trim()`, so JavaScript reads the text behind it. |
| Divergence.ByteOrderMarkPy | convert_csv_to_json.py:13 | Python's `strip()` keeps the byte order mark, so no text behind one is ever true, whatever follows it. |
| Divergence.NumberRelation | convert-csv-to-json.js:29-33 | When the two parsers agree on the comma-free text, the JavaScript number is the Python one with non-finite values dropped. |
| Divergence.InfinityOnlyInPython | convert-csv-to-json.js:32 | "Infinity" is null in the JavaScript record and an infinity in the Python one. |
| Divergence.LoneCommaDiffers | convert-csv-to-json.js:31 | A cell holding only `,` gives 0 in JavaScript (`Number("")`) and `None` in Python (`float("")` raises). |
| Divergence.ImagesRelation | convert_csv_to_json.py:27 | Without the disputed whitespace characters in the `images` cell, both converters emit the same image list. |
| Divergence.RecordsAgree | convert-csv-to-json.js:39-61 | On agreeable rows the two converters produce identical records. Agreeable means: parsers agree and are finite on every number cell, no disputed whitespace in `featured` or `images`, and `featured` is not "yes" or "y". |

## Left out

- DOM access, `innerHTML` and the card template, `ensureLightboxControls`, event-listener wiring, the navigation toggle and the year stamp (script-housing.js:52-73, 76-119, 137-143, 153-164). These are browser side effects. The events reaching the viewer are modelled as `Lightbox.Event`. Within the card template, the model does cover the escaping of fields and of `data-images` (`Escape.EscapeHtml`), the enquiry-link digits (`Card.EnquiryLink`) and `formatCurrency` (`Card.FormatCurrency`). The `JSON.parse` that reads `data-images` back is covered only as far as `Escape.UnescapeEscape` goes.
- The `alt` and `aria-hidden` attributes set by the viewer (script-housing.js:27, 29, 35). They carry no state the handlers read.
- The `fetch` chain and its error message (script-housing.js:122-134): asynchronous network I/O.
- `toLocaleString` digit grouping in `formatCurrency` (script-housing.js:10-11) is a parameter `grouped`, because it is locale-dependent and float-based.
- Card.CurrencyLabel: a `null` currency would print "null" where an absent one prints "undefined". The model has only the absent case, because records always carry a currency text.
- Escape.EscapeHtml: takes a text or nothing. Other values, such as the number 0, which `s || ''` also turns into `''`, are not modelled.
- Lightbox.Open: the position is an integer. A NaN or fractional position (`Math.min`/`Math.max` on non-integers) is not modelled.
- The real semantics of `Number(...)` and `float(...)` are parameters, because decimal-to-binary parsing is floating point.
- PapaParse and `csv.DictReader` tokenising, including DictReader's `None` fill for short rows. The model starts from an already-parsed row: a map from column name to cell text, in which a column the row lacks is an absent key.
- File reading and writing, `argv` handling, exit codes 1 and 2, and `JSON.stringify` / `json.dumps` formatting (convert-csv-to-json.js:12-19, 65; convert_csv_to_json.py:59-71). These are process I/O. `Record.ToJson` fixes the members and their values, not their textual rendering.
- Text.LowerAscii: lower-cases ASCII letters only, where `toLowerCase()` and `lower()` cover all of Unicode. No non-ASCII character lower-cases into the letters of "true", "false", "yes", "no", "y" or "n" as a single character, except the Kelvin sign (to `k`, not a keyword letter) and dotted capital I (to `i` plus a combining dot).
- A concrete mixed value such as `a.jpg; b.jpg ;;c.jpg` is not stated as one lemma. Its reading `[a.jpg, b.jpg, c.jpg]` follows from `Text.ImagePiecesConcat`, `Text.ImagePiecesSingle`, `Text.ImagePiecesPadded` and `Text.ImagePiecesBlank`.

=== FILE: card.dfy ===
/**
 The per-listing helpers of the card renderer besides escaping: the digits of
 the enquiry link and the price label.
 */
module Card {
  import opened Values
  import opened Text

  /** A subsequence never has more of any character than the string it is taken from. */
  lemma {:induction false} SubsequenceCount(t: string, s: string)
    requires IsSubsequence(t, s)
    ensures multiset(t) <= multiset(s)
    decreases |s|
  {
    if |t| > 0 {
      assert s == [s[0]] + s[1..];
      if t[0] == s[0] {
        SubsequenceCount(t[1..], s[1..]);
        assert t == [t[0]] + t[1..];
      } else {
        SubsequenceCount(t, s[1..]);
      }
    }
  }

  /**
   The digits of the enquiry link: `String(contact_phone || '')` with every
   character outside `0`-`9` removed. An absent phone gives the empty string.
   */
  function EnquiryPhone(phone: Option<string>): (r: string)
    ensures phone.None? ==> r == ""
    ensures forall i :: 0 <= i < |r| ==> IsDigit(r[i])
    ensures IsSubsequence(r, phone.GetOr(""))
    ensures forall c | IsDigit(c) :: multiset(r)[c] == multiset(phone.GetOr(""))[c]
  {
    Digits(phone.GetOr(""))
  }

  /**
   The digit filter is determined by its three properties: a string of digits
   that is a subsequence of `s` and has every digit of `s` as often as `s` is
   exactly what the filter returns.
   */
  lemma {:induction false} DigitsUnique(t: string, s: string)
    requires forall i :: 0 <= i < |t| ==> IsDigit(t[i])
    requires IsSubsequence(t, s)
    requires forall c | IsDigit(c) :: multiset(t)[c] == multiset(s)[c]
    ensures t == Digits(s)
    decreases |s|
  {
    if |s| == 0 {
    } else {
      var c := s[0];
      assert s == [c] + s[1..];
      if |t| > 0 {
        assert t == [t[0]] + t[1..];
      }
      if IsDigit(c) {
        assert multiset(t)[c] == multiset(s)[c] >= 1;
        assert |t| > 0;
        if t[0] == c {
          forall i | 0 <= i < |t[1..]|
            ensures IsDigit(t[1..][i])
          {
            assert t[1..][i] == t[i + 1];
          }
          DigitsUnique(t[1..], s[1..]);
        } else {
          SubsequenceCount(t, s[1..]);
          assert false;
        }
      } else {
        if |t| > 0 {
          assert IsDigit(t[0]);
          assert t[0] != c;
        }
        assert IsSubsequence(t, s[1..]);
        DigitsUnique(t, s[1..]);
      }
    }
  }

  /**
   The link behind the Enquire button: the messaging URL followed by the
   phone's digits, in order and nothing else.
   */
  function EnquiryLink(phone: Option<string>): (r: string)
    ensures |r| >= 14 && r[..14] == "https://wa.me/"
    ensures r[14..] == EnquiryPhone(phone)
    ensures forall i :: 14 <= i < |r| ==> IsDigit(r[i])
    ensures phone.None? ==> r == "https://wa.me/"
  {
    "https://wa.me/" + EnquiryPhone(phone)
  }

  /** What `formatCurrency` may receive as an amount. */
  datatype Amount =
    | Absent          // null or undefined
    | Str(s: string)  // a string, converted by Number(...)
    | Num(n: Float)   // a number

  /** `Number(amount)` for a present amount; `numberOf` stands for JavaScript's string-to-number conversion. */
  function AmountValue(amount: Amount, numberOf: string -> Float): Float
    requires amount != Absent
  {
    match amount
    case Str(s) => numberOf(s)
    case Num(n) => n
  }

  /** `currency + ' '` turns a missing currency into the text "undefined". */
  function CurrencyLabel(currency: Option<string>): string {
    match currency
    case None => "undefined"
    case Some(c) => c
  }

  /**
   `formatCurrency(amount, currency)`: empty for a missing or empty amount;
   otherwise the naira sign for NGN and the currency code and a space for any
   other currency, followed by the amount as `toLocaleString` groups it
   (`grouped`, locale-dependent and left abstract).
   */
  function FormatCurrency(amount: Amount, currency: Option<string>, numberOf: string -> Float,
                          grouped: Float -> string): (r: string)
    ensures r == "" <==> amount == Absent || amount == Str("")
    ensures amount != Absent && amount != Str("") && currency == Some("NGN") ==>
      r == ['\U{20A6}'] + grouped(AmountValue(amount, numberOf))
    ensures amount != Absent && amount != Str("") && currency != Some("NGN") ==>
      r == CurrencyLabel(currency) + " " + grouped(AmountValue(amount, numberOf))
  {
    if amount == Absent || amount == Str("") then ""
    else
      var text := grouped(AmountValue(amount, numberOf));
      if currency == Some("NGN") then "\U{20A6}" + text
      else CurrencyLabel(currency) + " " + text
  }
}

=== FILE: convert_js.dfy ===
/**
 The Node converter: each row the CSV reader produced becomes one record.
 `numberOf` stands for JavaScript's `Number(string)`, which never fails but
 may give NaN or an infinity.
 */
module ConvertJs {
  import opened Values
  import opened Text
  import opened Record

  /** What `toBool` returns: a boolean, or the normalised text when it is neither spelling. */
  datatype Coerced = Flag(b: bool) | Passed(s: string)

  /** The trimmed, lower-cased text `toBool` compares. */
  function Normal(s: string): string {
    LowerAscii(Strip(JavaScript, s))
  }

  /**
   `toBool(v)`: false for a missing value; true for "true" or "1" and false
   for "false" or "0" after trimming and lower-casing; any other text comes
   back as that normalised text.
   */
  function ToBool(v: Option<string>): (r: Coerced)
    ensures v.None? ==> r == Flag(false)
    ensures r == Flag(true) <==> v.Some? && Normal(v.value) in {"true", "1"}
    ensures r == Flag(false) <==> v.None? || Normal(v.value) in {"false", "0"}
    ensures r.Passed? ==> v.Some? && r.s == Normal(v.value) && r.s !in {"true", "1", "false", "0"}
  {
    if v.None? then Flag(false)
    else
      var s := Normal(v.value);
      if s == "true" || s == "1" then Flag(true)
      else if s == "false" || s == "0" then Flag(false)
      else Passed(s)
  }

  /** `featured: toBool(row.featured) === true`: only a true flag counts, never passed-through text. */
  function Featured(v: Option<string>): (r: bool)
    ensures r <==> v.Some? && Normal(v.value) in {"true", "1"}
  {
    ToBool(v) == Flag(true)
  }

  /**
   `toNumber(v)`: null for a missing or empty value; otherwise the parse of
   the text with its commas deleted, or null when that is not finite.
   */
  function ToNumber(v: Option<string>, numberOf: string -> Float): (r: Option<Float>)
    ensures v.None? || v == Some("") ==> r.None?
    ensures r.Some? ==> r.value.Finite?
    ensures v.Some? && v.value != "" ==>
      (r.Some? <==> numberOf(DeleteCommas(v.value)).Finite?)
    ensures r.Some? ==> r.value == numberOf(DeleteCommas(v.value))
  {
    if v.None? || v.value == "" then None
    else
      var n := numberOf(DeleteCommas(v.value));
      if n.Finite? then Some(n) else None
  }

  /** Two texts with the same characters apart from commas convert alike. */
  lemma ToNumberCommaBlind(a: string, b: string, numberOf: string -> Float)
    requires a != "" && b != "" && DeleteCommas(a) == DeleteCommas(b)
    ensures ToNumber(Some(a), numberOf) == ToNumber(Some(b), numberOf)
  {
  }

  /** Deleting the commas first changes nothing, unless nothing else is left. */
  lemma ToNumberIgnoresCommas(s: string, numberOf: string -> Float)
    requires DeleteCommas(s) != ""
    ensures ToNumber(Some(s), numberOf) == ToNumber(Some(DeleteCommas(s)), numberOf)
  {
    DeleteCommasIdempotent(s);
    assert s != "";
  }

  /** `row.col || ''`: the cell, or the empty string when it is missing or empty. */
  function TextOf(row: Row, column: string): (r: string)
    ensures r == Cell(row, column).GetOr("")
  {
    if column in row && row[column] != "" then row[column] else ""
  }

  /** The `images` column: `String(row.images || '').split(';')`, trimmed, empties dropped. */
  function Images(row: Row): (r: seq<string>)
    ensures "images" !in row || row["images"] == "" ==> r == []
    ensures r == ImagePieces(JavaScript, Cell(row, "images").GetOr(""))
    ensures CleanList(JavaScript, r)
  {
    ImagePiecesEmpty(JavaScript);
    ImagePieces(JavaScript, TextOf(row, "images"))
  }

  /** No number field of a JavaScript record is NaN or infinite. */
  predicate NumbersFinite(p: Property) {
    && (p.price.Some? ==> p.price.value.Finite?)
    && (p.beds.Some? ==> p.beds.value.Finite?)
    && (p.baths.Some? ==> p.baths.value.Finite?)
    && (p.areaSqm.Some? ==> p.areaSqm.value.Finite?)
    && (p.lat.Some? ==> p.lat.value.Finite?)
    && (p.lng.Some? ==> p.lng.value.Finite?)
  }

  /**
   The record built for one row: text fields default to the empty string,
   number fields go through `toNumber`, `featured` is strictly boolean and
   `images` is the cleaned list.
   */
  function ToRecord(row: Row, numberOf: string -> Float): (p: Property)
    ensures p.featured <==> "featured" in row && Normal(row["featured"]) in {"true", "1"}
    ensures NumbersFinite(p)
    ensures "price" !in row || row["price"] == "" ==> p.price.None?
  {
    Property(
      id := TextOf(row, "id"),
      title := TextOf(row, "title"),
      slug := TextOf(row, "slug"),
      address := TextOf(row, "address"),
      city := TextOf(row, "city"),
      neighborhood := TextOf(row, "neighborhood"),
      price := ToNumber(Cell(row, "price"), numberOf),
      priceCurrency := TextOf(row, "price_currency"),
      beds := ToNumber(Cell(row, "beds"), numberOf),
      baths := ToNumber(Cell(row, "baths"), numberOf),
      furnished := TextOf(row, "furnished"),
      areaSqm := ToNumber(Cell(row, "area_sqm"), numberOf),
      propertyType := TextOf(row, "type"),
      availability := TextOf(row, "availability"),
      featured := Featured(Cell(row, "featured")),
      description := TextOf(row, "description"),
      images := Images(row),
      contactPhone := TextOf(row, "contact_phone"),
      listingUrl := TextOf(row, "listing_url"),
      lat := ToNumber(Cell(row, "lat"), numberOf),
      lng := ToNumber(Cell(row, "lng"), numberOf)
    )
  }

  /** Every number field of `p` is `toNumber` of its own column. */
  predicate NumberFieldsFrom(p: Property, row: Row, numberOf: string -> Float) {
    && p.price == ToNumber(Cell(row, "price"), numberOf)
    && p.beds == ToNumber(Cell(row, "beds"), numberOf)
    && p.baths == ToNumber(Cell(row, "baths"), numberOf)
    && p.areaSqm == ToNumber(Cell(row, "area_sqm"), numberOf)
    && p.lat == ToNumber(Cell(row, "lat"), numberOf)
    && p.lng == ToNumber(Cell(row, "lng"), numberOf)
  }

  /** Each text field of a record is copied from its own column, the empty string when missing. */
  lemma ToRecordFields(row: Row, numberOf: string -> Float)
    ensures TextFieldsFrom(ToRecord(row, numberOf), row)
  {
  }

  /** Each number field of a record is `toNumber` of its own column. */
  lemma ToRecordNumbers(row: Row, numberOf: string -> Float)
    ensures NumberFieldsFrom(ToRecord(row, numberOf), row, numberOf)
  {
    var p := ToRecord(row, numberOf);
    assert p.price == ToNumber(Cell(row, "price"), numberOf) by {}
    assert p.beds == ToNumber(Cell(row, "beds"), numberOf) by {}
    assert p.baths == ToNumber(Cell(row, "baths"), numberOf) by {}
    assert p.areaSqm == ToNumber(Cell(row, "area_sqm"), numberOf) by {}
    assert p.lat == ToNumber(Cell(row, "lat"), numberOf) by {}
    assert p.lng == ToNumber(Cell(row, "lng"), numberOf) by {}
  }

  /** `featured` is the strict boolean of its column and the image list is the cleaned `images` cell. */
  lemma ToRecordFeaturedImages(row: Row, numberOf: string -> Float)
    ensures ToRecord(row, numberOf).featured == Featured(Cell(row, "featured"))
    ensures ToRecord(row, numberOf).images == ImagePieces(JavaScript, Cell(row, "images").GetOr(""))
    ensures CleanList(JavaScript, ToRecord(row, numberOf).images)
  {
  }

  /** `parsed.data.map(...)`: one record per row, in row order. */
  function Convert(rows: seq<Row>, numberOf: string -> Float): (out: seq<Property>)
    ensures |out| == |rows|
    ensures forall i :: 0 <= i < |rows| ==> out[i] == ToRecord(rows[i], numberOf)
  {
    Map(row => ToRecord(row, numberOf), rows)
  }

  /** Converting two batches of rows is converting their concatenation. */
  lemma ConvertAppend(a: seq<Row>, b: seq<Row>, numberOf: string -> Float)
    ensures Convert(a + b, numberOf) == Convert(a, numberOf) + Convert(b, numberOf)
  {
    MapAppend(row => ToRecord(row, numberOf), a, b);
  }

  /** An upper-case "TRUE" and the digit "1" are featured; a missing value is not. */
  lemma FeaturedSpellings()
    ensures Featured(Some("TRUE")) && Featured(Some("1")) && !Featured(None)
  {
    FeaturedOf("TRUE", "true");
    FeaturedOf("1", "1");
  }

  /** The false spellings are not featured. */
  lemma NotFeaturedSpellings()
    ensures !Featured(Some("false")) && !Featured(Some("0"))
  {
    FeaturedOf("false", "false");
    FeaturedOf("0", "0");
  }

  /** "yes" is not a true spelling here. */
  lemma YesNotFeatured()
    ensures !Featured(Some("yes"))
  {
    FeaturedOf("yes", "yes");
  }

  /** A text without surrounding whitespace is featured exactly when its lower-casing is a true spelling. */
  lemma FeaturedOf(s: string, lower: string)
    requires Trimmed(JavaScript, s) && LowerAscii(s) == lower
    ensures Featured(Some(s)) <==> lower == "true" || lower == "1"
  {
    assert Normal(s) == lower by {
      StripFixed(JavaScript, s);
    }
    FeaturedNormal(s, lower);
  }

  lemma FeaturedNormal(s: string, n: string)
    requires Normal(s) == n
    ensures Featured(Some(s)) <==> n == "true" || n == "1"
  {
  }
}

=== FILE: convert_py.dfy ===
/**
 The Python converter: each row `csv.DictReader` produced becomes one record.
 `floatOf` stands for Python's `float(str)`: None where it raises, and
 otherwise a value that may be NaN or an infinity.
 */
module ConvertPy {
  import opened Values
  import opened Text
  import opened Record

  /** The text `to_bool` compares: `str(v).strip().lower()`. */
  function Normal(s: string): string {
    LowerAscii(Strip(Python, s))
  }

  /**
   `to_bool(v)`: false for None; true for the four true spellings after
   stripping and lower-casing; false for the four false spellings and for
   anything else.
   */
  function ToBool(v: Option<string>): (r: bool)
    ensures r <==> v.Some? && Normal(v.value) in {"true", "1", "yes", "y"}
    ensures v.Some? && Normal(v.value) in {"false", "0", "no", "n"} ==> !r
  {
    if v.None? then false
    else
      var s := Normal(v.value);
      if s in {"true", "1", "yes", "y"} then true
      else if s in {"false", "0", "no", "n"} then false
      else false
  }

  /** A text that starts with a character outside ASCII letters and digits is no spelling at all. */
  lemma NotASpelling(n: string)
    requires |n| > 0 && !('a' <= n[0] <= 'z') && n[0] != '1' && n[0] != '0'
    ensures n !in {"true", "1", "yes", "y"} && n !in {"false", "0", "no", "n"}
  {
  }

  /** A text without surrounding whitespace is true exactly when its lower-casing is a true spelling. */
  lemma ToBoolOf(s: string, lower: string)
    requires Trimmed(Python, s) && LowerAscii(s) == lower
    ensures ToBool(Some(s)) <==> lower in {"true", "1", "yes", "y"}
  {
    StripFixed(Python, s);
    assert Normal(s) == lower;
  }

  /** The four true spellings, in the capitalisations a spreadsheet would produce, are all true. */
  lemma TrueSpellingsHold(s: string)
    requires s in {"TRUE", "True", "true", "1", "YES", "Yes", "yes", "Y", "y"}
    ensures ToBool(Some(s))
  {
    if s == "TRUE" || s == "True" || s == "true" {
      ToBoolOf(s, "true");
    } else if s == "1" {
      ToBoolOf(s, "1");
    } else if s == "YES" || s == "Yes" || s == "yes" {
      ToBoolOf(s, "yes");
    } else {
      ToBoolOf(s, "y");
    }
  }

  /**
   `to_number(v)`: None for None or the empty string; otherwise the float of
   the text with its commas deleted, or None where `float` raises.
   */
  function ToNumber(v: Option<string>, floatOf: string -> Option<Float>): (r: Option<Float>)
    ensures v.None? || v == Some("") ==> r.None?
    ensures v.Some? && v.value != "" ==> r == floatOf(DeleteCommas(v.value))
  {
    if v.None? || v.value == "" then None
    else floatOf(DeleteCommas(v.value))
  }

  /** Two texts with the same characters apart from commas convert alike. */
  lemma ToNumberCommaBlind(a: string, b: string, floatOf: string -> Option<Float>)
    requires a != "" && b != "" && DeleteCommas(a) == DeleteCommas(b)
    ensures ToNumber(Some(a), floatOf) == ToNumber(Some(b), floatOf)
  {
  }

  /** A text of commas only reaches `float` as the empty string. */
  lemma ToNumberOnlyCommas(s: string, floatOf: string -> Option<Float>)
    requires s != "" && forall i :: 0 <= i < |s| ==> s[i] == ','
    ensures ToNumber(Some(s), floatOf) == floatOf("")
  {
    DeleteCommasOnlyCommas(s);
  }

  /** `split_images(s)`: nothing for the empty text, otherwise the stripped non-empty pieces between `;`. */
  function SplitImages(s: string): (r: seq<string>)
    ensures s == "" ==> r == []
    ensures r == ImagePieces(Python, s)
    ensures CleanList(Python, r)
  {
    // the `if not s` shortcut agrees with splitting: "" has no pieces either
    ImagePiecesEmpty(Python);
    if s == "" then [] else ImagePieces(Python, s)
  }

  /** Entries keep their order: the images of `a;b` are those of `a` followed by those of `b`. */
  lemma SplitImagesConcat(a: string, b: string)
    ensures SplitImages(a + ";" + b) == SplitImages(a) + SplitImages(b)
  {
    ImagePiecesConcat(Python, a, b);
  }

  /** Joining the images with `;` and splitting again gives the same list. */
  lemma SplitImagesIdempotent(s: string)
    ensures SplitImages(Join(SplitImages(s), ';')) == SplitImages(s)
  {
    ImagePiecesIdempotent(Python, s);
  }

  /**
   The record built for one row: text fields are `row.get(col, '')`, number
   fields go through `to_number`, `featured` through `to_bool` and `images`
   through `split_images`.
   */
  function ToRecord(row: Row, floatOf: string -> Option<Float>): (p: Property)
    ensures p.featured <==> "featured" in row && Normal(row["featured"]) in {"true", "1", "yes", "y"}
    ensures "price" !in row || row["price"] == "" ==> p.price.None?
    ensures "price" in row && row["price"] != "" ==> p.price == floatOf(DeleteCommas(row["price"]))
  {
    Property(
      id := Cell(row, "id").GetOr(""),
      title := Cell(row, "title").GetOr(""),
      slug := Cell(row, "slug").GetOr(""),
      address := Cell(row, "address").GetOr(""),
      city := Cell(row, "city").GetOr(""),
      neighborhood := Cell(row, "neighborhood").GetOr(""),
      price := ToNumber(Cell(row, "price"), floatOf),
      priceCurrency := Cell(row, "price_currency").GetOr(""),
      beds := ToNumber(Cell(row, "beds"), floatOf),
      baths := ToNumber(Cell(row, "baths"), floatOf),
      furnished := Cell(row, "furnished").GetOr(""),
      areaSqm := ToNumber(Cell(row, "area_sqm"), floatOf),
      propertyType := Cell(row, "type").GetOr(""),
      availability := Cell(row, "availability").GetOr(""),
      featured := ToBool(Cell(row, "featured")),
      description := Cell(row, "description").GetOr(""),
      images := SplitImages(Cell(row, "images").GetOr("")),
      contactPhone := Cell(row, "contact_phone").GetOr(""),
      listingUrl := Cell(row, "listing_url").GetOr(""),
      lat := ToNumber(Cell(row, "lat"), floatOf),
      lng := ToNumber(Cell(row, "lng"), floatOf)
    )
  }

  /** Every number field of `p` is `to_number` of its own column. */
  predicate NumberFieldsFrom(p: Property, row: Row, floatOf: string -> Option<Float>) {
    && p.price == ToNumber(Cell(row, "price"), floatOf)
    && p.beds == ToNumber(Cell(row, "beds"), floatOf)
    && p.baths == ToNumber(Cell(row, "baths"), floatOf)
    && p.areaSqm == ToNumber(Cell(row, "area_sqm"), floatOf)
    && p.lat == ToNumber(Cell(row, "lat"), floatOf)
    && p.lng == ToNumber(Cell(row, "lng"), floatOf)
  }

  /**
   Each field of a record comes from its own column: text fields are
   `row.get(col, '')`, number fields go through `to_number`, `featured`
   through `to_bool` and `images` through `split_images`.
   */
  lemma ToRecordFields(row: Row, floatOf: string -> Option<Float>)
    ensures TextFieldsFrom(ToRecord(row, floatOf), row)
    ensures NumberFieldsFrom(ToRecord(row, floatOf), row, floatOf)
    ensures ToRecord(row, floatOf).featured == ToBool(Cell(row, "featured"))
    ensures ToRecord(row, floatOf).images == SplitImages(Cell(row, "images").GetOr(""))
    ensures CleanList(Python, ToRecord(row, floatOf).images)
  {
  }

  /** `convert(infile)`: the rows read in order, each appended as its record. */
  method Convert(rows: seq<Row>, floatOf: string -> Option<Float>) returns (out: seq<Property>)
    ensures |out| == |rows|
    ensures forall i :: 0 <= i < |rows| ==> out[i] == ToRecord(rows[i], floatOf)
  {
    out := MapLoop(row => ToRecord(row, floatOf), rows);
  }
}

=== FILE: divergence.dfy ===
/**
 The two converters side by side. They copy text fields alike, but differ in
 which spellings of `featured` count as true, in which characters they strip,
 and in how they treat a number the parser cannot represent finitely.
 */
module Divergence {
  import opened Values
  import opened Text
  import opened Record
  import Js = ConvertJs
  import Py = ConvertPy

  /** The text fields of the two records are the same for every row. */
  lemma TextFieldsAgree(row: Row, numberOf: string -> Float, floatOf: string -> Option<Float>)
    ensures var a := Js.ToRecord(row, numberOf); var b := Py.ToRecord(row, floatOf);
      && a.id == b.id && a.title == b.title && a.slug == b.slug && a.address == b.address
      && a.city == b.city && a.neighborhood == b.neighborhood && a.priceCurrency == b.priceCurrency
      && a.furnished == b.furnished && a.propertyType == b.propertyType
      && a.availability == b.availability && a.description == b.description
      && a.contactPhone == b.contactPhone && a.listingUrl == b.listingUrl
  {
    Js.ToRecordFields(row, numberOf);
    Py.ToRecordFields(row, floatOf);
  }

  /** Every character of `s` is whitespace to both languages or to neither. */
  predicate PlainSpaces(s: string) {
    forall i :: 0 <= i < |s| ==> SpacesAgree(s[i])
  }

  /**
   With no character the languages disagree on, Python's `to_bool` is true
   exactly when the JavaScript record is featured or the text is "yes" or "y".
   */
  lemma FeaturedRelation(v: Option<string>)
    requires v.Some? ==> PlainSpaces(v.value)
    ensures Py.ToBool(v) <==> Js.Featured(v) || (v.Some? && Js.Normal(v.value) in {"yes", "y"})
  {
    if v.Some? {
      NormalAgree(v.value);
    }
  }

  /** With no character the languages disagree on, both normalise a text alike. */
  lemma NormalAgree(s: string)
    requires PlainSpaces(s)
    ensures Py.Normal(s) == Js.Normal(s)
  {
    StripAgree(s);
  }

  /** "yes" is featured by the Python converter and not by the JavaScript one. */
  lemma YesOnlyInPython()
    ensures Py.ToBool(Some("yes")) && !Js.Featured(Some("yes"))
  {
    Py.ToBoolOf("yes", "yes");
    Js.YesNotFeatured();
  }

  /** A byte order mark in front of a text is whitespace to JavaScript's `trim()`: the text behind it is read. */
  lemma ByteOrderMarkJs(t: string)
    ensures Js.Normal("\U{FEFF}" + t) == Js.Normal(t)
  {
    var s := "\U{FEFF}" + t;
    assert Strip(JavaScript, s) == Strip(JavaScript, t) by {
      assert s[1..] == t;
      assert TrimStart(JavaScript, s) == TrimStart(JavaScript, t);
    }
  }

  /** To Python's `strip()` it is not whitespace: a text behind it is never a true spelling. */
  lemma ByteOrderMarkPy(t: string)
    ensures !Py.ToBool(Some("\U{FEFF}" + t))
  {
    var s := "\U{FEFF}" + t;
    assert !IsSpace(Python, s[0]);
    assert TrimStart(Python, s) == s;
    var r := TrimEnd(Python, s);
    assert |r| > 0 && r[0] == '\U{FEFF}';
    assert Strip(Python, s) == r;
    assert Py.Normal(s)[0] == '\U{FEFF}';
    Py.NotASpelling(Py.Normal(s));
  }

  /** A number the JavaScript converter keeps: the Python value when it is finite, and null otherwise. */
  function FiniteOnly(x: Option<Float>): (r: Option<Float>)
    ensures r.Some? ==> r == x && r.value.Finite?
    ensures x.Some? && x.value.Finite? ==> r == x
  {
    if x.Some? && x.value.Finite? then x else None
  }

  /**
   When `float` and `Number` agree on the comma-free text, the JavaScript
   converter's number is the Python one with the non-finite values dropped.
   */
  lemma NumberRelation(v: Option<string>, numberOf: string -> Float, floatOf: string -> Option<Float>)
    requires v.Some? && v.value != "" ==>
      floatOf(DeleteCommas(v.value)) == Some(numberOf(DeleteCommas(v.value)))
    ensures Js.ToNumber(v, numberOf) == FiniteOnly(Py.ToNumber(v, floatOf))
  {
  }

  /** "Infinity" is a number to Python's converter and null to JavaScript's. */
  lemma InfinityOnlyInPython(numberOf: string -> Float, floatOf: string -> Option<Float>)
    requires numberOf("Infinity") == Infinity(false) && floatOf("Infinity") == Some(Infinity(false))
    ensures Js.ToNumber(Some("Infinity"), numberOf) == None
    ensures Py.ToNumber(Some("Infinity"), floatOf) == Some(Infinity(false))
  {
    DeleteCommasNoComma("Infinity");
  }

  /**
   A cell holding only a comma: JavaScript's `Number("")` is 0, while Python's
   `float("")` raises, so the two converters disagree.
   */
  lemma LoneCommaDiffers(numberOf: string -> Float, floatOf: string -> Option<Float>)
    requires numberOf("") == Finite(0.0) && floatOf("") == None
    ensures Js.ToNumber(Some(","), numberOf) == Some(Finite(0.0))
    ensures Py.ToNumber(Some(","), floatOf) == None
  {
    DeleteCommasOnlyCommas(",");
  }

  /** With no character the languages disagree on, both converters read the same image list. */
  lemma ImagesRelation(row: Row, numberOf: string -> Float, floatOf: string -> Option<Float>)
    requires "images" in row ==> PlainSpaces(row["images"])
    ensures Js.ToRecord(row, numberOf).images == Py.ToRecord(row, floatOf).images
  {
    var s := Cell(row, "images").GetOr("");
    ImagePiecesAgree(s);
  }

  /** A number column on which the two parsers agree and give a finite value, or which is missing or empty. */
  predicate NumberCellAgrees(row: Row, column: string, numberOf: string -> Float,
                             floatOf: string -> Option<Float>) {
    column in row && row[column] != "" ==>
      && numberOf(DeleteCommas(row[column])).Finite?
      && floatOf(DeleteCommas(row[column])) == Some(numberOf(DeleteCommas(row[column])))
  }

  /**
   The rows on which the converters agree: the parsers agree on every number
   column and give finite values, `featured` and `images` hold no character
   the languages disagree on, and `featured` is not "yes" or "y".
   */
  predicate Agreeable(row: Row, numberOf: string -> Float, floatOf: string -> Option<Float>) {
    && NumberCellAgrees(row, "price", numberOf, floatOf)
    && NumberCellAgrees(row, "beds", numberOf, floatOf)
    && NumberCellAgrees(row, "baths", numberOf, floatOf)
    && NumberCellAgrees(row, "area_sqm", numberOf, floatOf)
    && NumberCellAgrees(row, "lat", numberOf, floatOf)
    && NumberCellAgrees(row, "lng", numberOf, floatOf)
    && ("images" in row ==> PlainSpaces(row["images"]))
    && ("featured" in row ==> PlainSpaces(row["featured"]) && Js.Normal(row["featured"]) !in {"yes", "y"})
  }

  /** A number column as `NumberCellAgrees` describes it converts alike in both languages. */
  lemma NumberCellRelation(row: Row, column: string, numberOf: string -> Float,
                           floatOf: string -> Option<Float>)
    requires NumberCellAgrees(row, column, numberOf, floatOf)
    ensures Js.ToNumber(Cell(row, column), numberOf) == Py.ToNumber(Cell(row, column), floatOf)
  {
    NumberRelation(Cell(row, column), numberOf, floatOf);
  }

  /** Number fields converted from an agreeable row are the same in both languages. */
  lemma SameNumbers(a: Property, b: Property, row: Row, numberOf: string -> Float,
                    floatOf: string -> Option<Float>)
    requires Agreeable(row, numberOf, floatOf)
    requires Js.NumberFieldsFrom(a, row, numberOf) && Py.NumberFieldsFrom(b, row, floatOf)
    ensures a.price == b.price && a.beds == b.beds && a.baths == b.baths
    ensures a.areaSqm == b.areaSqm && a.lat == b.lat && a.lng == b.lng
  {
    NumberCellRelation(row, "price", numberOf, floatOf);
    NumberCellRelation(row, "beds", numberOf, floatOf);
    NumberCellRelation(row, "baths", numberOf, floatOf);
    NumberCellRelation(row, "area_sqm", numberOf, floatOf);
    NumberCellRelation(row, "lat", numberOf, floatOf);
    NumberCellRelation(row, "lng", numberOf, floatOf);
  }

  /** `featured` and `images` read from an agreeable row are the same in both languages. */
  lemma SameFlagAndImages(a: Property, b: Property, row: Row, numberOf: string -> Float,
                          floatOf: string -> Option<Float>)
    requires Agreeable(row, numberOf, floatOf)
    requires a.featured == Js.Featured(Cell(row, "featured")) && b.featured == Py.ToBool(Cell(row, "featured"))
    requires a.images == ImagePieces(JavaScript, Cell(row, "images").GetOr(""))
    requires b.images == ImagePieces(Python, Cell(row, "images").GetOr(""))
    ensures a.featured == b.featured && a.images == b.images
  {
    ImagePiecesAgree(Cell(row, "images").GetOr(""));
    FeaturedRelation(Cell(row, "featured"));
  }

  /**
   Two records built field by field from the same agreeable row, one the
   JavaScript way and one the Python way, are equal.
   */
  lemma SameRecord(a: Property, b: Property, row: Row, numberOf: string -> Float,
                   floatOf: string -> Option<Float>)
    requires Agreeable(row, numberOf, floatOf)
    requires TextFieldsFrom(a, row) && TextFieldsFrom(b, row)
    requires Js.NumberFieldsFrom(a, row, numberOf) && Py.NumberFieldsFrom(b, row, floatOf)
    requires a.featured == Js.Featured(Cell(row, "featured")) && b.featured == Py.ToBool(Cell(row, "featured"))
    requires a.images == ImagePieces(JavaScript, Cell(row, "images").GetOr(""))
    requires b.images == ImagePieces(Python, Cell(row, "images").GetOr(""))
    ensures a == b
  {
    SameNumbers(a, b, row, numberOf, floatOf);
    SameFlagAndImages(a, b, row, numberOf, floatOf);
    SameFields(a, b, row);
  }

  /** On such rows the two converters produce the same record. */
  lemma RecordsAgree(row: Row, numberOf: string -> Float, floatOf: string -> Option<Float>)
    requires Agreeable(row, numberOf, floatOf)
    ensures Js.ToRecord(row, numberOf) == Py.ToRecord(row, floatOf)
  {
    Js.ToRecordFields(row, numberOf);
    Js.ToRecordNumbers(row, numberOf);
    Js.ToRecordFeaturedImages(row, numberOf);
    Py.ToRecordFields(row, floatOf);
    SameRecord(Js.ToRecord(row, numberOf), Py.ToRecord(row, floatOf), row, numberOf, floatOf);
  }
}

=== FILE: escape.dfy ===
/**
 The renderer's `escapeHtml`: every `&`, `<`, `>`, `"` and `'` of the text is
 replaced by its character reference, everything else is copied. Card markup
 interpolates escaped record fields, and the `data-images` attribute holds the
 escaped JSON of the image list inside single quotes; the browser decodes the
 references again before the list is parsed back, so the escaping must be
 undone exactly by decoding.
 */
module Escape {
  import opened Values

  /** The five characters that are replaced. */
  predicate IsSpecial(c: char) {
    c == '&' || c == '<' || c == '>' || c == '"' || c == '\''
  }

  /** The replacement of one character: its reference, or the character itself. */
  function Entity(c: char): (r: string)
    ensures |r| >= 1 && (r[0] == '&' <==> IsSpecial(c))
    ensures !IsSpecial(c) ==> r == [c]
    ensures forall i :: 0 <= i < |r| ==> r[i] != '<' && r[i] != '>' && r[i] != '"' && r[i] != '\''
  {
    match c
    case '&' => "&amp;"
    case '<' => "&lt;"
    case '>' => "&gt;"
    case '"' => "&quot;"
    case '\'' => "&#39;"
    case _ => [c]
  }

  /** Escapes a string character by character. */
  function EscapeText(s: string): (r: string)
    ensures |r| >= |s|
    ensures forall i :: 0 <= i < |r| ==> r[i] != '<' && r[i] != '>' && r[i] != '"' && r[i] != '\''
  {
    if |s| == 0 then ""
    else
      var head := Entity(s[0]);
      var rest := EscapeText(s[1..]);
      assert forall i :: 0 <= i < |head| ==> (head + rest)[i] == head[i];
      assert forall i :: |head| <= i < |head + rest| ==> (head + rest)[i] == rest[i - |head|];
      head + rest
  }

  /**
   `escapeHtml(s)`: `String(s || '')` first, so a missing value and the empty
   string both give the empty string.
   */
  function EscapeHtml(v: Option<string>): (r: string)
    ensures v == None || v == Some("") ==> r == ""
    ensures '<' !in r && '>' !in r && '"' !in r && '\'' !in r
    ensures v.Some? ==> Unescape(r) == v.value
  {
    match v
    case None => ""
    case Some(s) => UnescapeEscape(s); EscapeText(s)
  }

  /** Text without any of the five characters is copied unchanged. */
  lemma {:induction false} EscapePlain(s: string)
    requires forall i :: 0 <= i < |s| ==> !IsSpecial(s[i])
    ensures EscapeText(s) == s
  {
    if |s| > 0 {
      EscapePlain(s[1..]);
      assert s == [s[0]] + s[1..];
    }
  }

  lemma {:induction false} EscapeAppend(a: string, b: string)
    ensures EscapeText(a + b) == EscapeText(a) + EscapeText(b)
  {
    if |a| == 0 {
      assert a + b == b;
    } else {
      assert (a + b)[0] == a[0];
      assert (a + b)[1..] == a[1..] + b;
      EscapeAppend(a[1..], b);
    }
  }

  /**
   The markup-injection case: a tag such as `<script>` in a field comes out as
   `&lt;script&gt;`, text and not markup.
   */
  lemma EscapeTag(name: string)
    requires forall i :: 0 <= i < |name| ==> !IsSpecial(name[i])
    ensures EscapeHtml(Some("<" + name + ">")) == "&lt;" + name + "&gt;"
  {
    EscapeAppend("<" + name, ">");
    EscapeAppend("<", name);
    EscapePlain(name);
    assert EscapeText("<") == Entity('<') + EscapeText("");
    assert EscapeText(">") == Entity('>') + EscapeText("");
  }

  predicate StartsWith(s: string, p: string) {
    |p| <= |s| && s[..|p|] == p
  }

  /**
   Decoding of the five references that `escapeHtml` produces, left to right;
   an `&` that starts none of them is kept as it is.
   */
  function Unescape(s: string): string
    decreases |s|
  {
    if |s| == 0 then ""
    else if s[0] != '&' then [s[0]] + Unescape(s[1..])
    else if StartsWith(s, "&amp;") then "&" + Unescape(s[5..])
    else if StartsWith(s, "&lt;") then "<" + Unescape(s[4..])
    else if StartsWith(s, "&gt;") then ">" + Unescape(s[4..])
    else if StartsWith(s, "&quot;") then "\"" + Unescape(s[6..])
    else if StartsWith(s, "&#39;") then "'" + Unescape(s[5..])
    else "&" + Unescape(s[1..])
  }

  /** A string that differs from `p` at some position of both does not start with `p`. */
  lemma PrefixDiffers(s: string, p: string, i: nat)
    requires i < |p| && i < |s| && s[i] != p[i]
    ensures !StartsWith(s, p)
  {
    if |p| <= |s| {
      assert s[..|p|][i] == s[i];
    }
  }

  /** Decoding the replacement of one character, followed by anything, yields that character first. */
  lemma UnescapeEntity(c: char, t: string)
    ensures Unescape(Entity(c) + t) == [c] + Unescape(t)
  {
    var s := Entity(c) + t;
    if c == '&' {
      assert s[..5] == "&amp;" && s[5..] == t;
    } else if c == '<' {
      assert s[..4] == "&lt;" && s[4..] == t;
      PrefixDiffers(s, "&amp;", 1);
    } else if c == '>' {
      assert s[..4] == "&gt;" && s[4..] == t;
      PrefixDiffers(s, "&amp;", 1);
      PrefixDiffers(s, "&lt;", 1);
    } else if c == '"' {
      assert s[..6] == "&quot;" && s[6..] == t;
      PrefixDiffers(s, "&amp;", 1);
      PrefixDiffers(s, "&lt;", 1);
      PrefixDiffers(s, "&gt;", 1);
    } else if c == '\'' {
      assert s[..5] == "&#39;" && s[5..] == t;
      PrefixDiffers(s, "&amp;", 1);
      PrefixDiffers(s, "&lt;", 1);
      PrefixDiffers(s, "&gt;", 1);
      PrefixDiffers(s, "&quot;", 1);
    } else {
      assert s[0] == c && s[1..] == t;
    }
  }

  /** Decoding undoes escaping, so the `data-images` JSON reaches the parser unchanged. */
  lemma {:induction false} UnescapeEscape(s: string)
    ensures Unescape(EscapeText(s)) == s
  {
    if |s| > 0 {
      UnescapeEscape(s[1..]);
      UnescapeEntity(s[0], EscapeText(s[1..]));
      assert s == [s[0]] + s[1..];
    }
  }

  /** Escaping is injective: different texts never render the same. */
  lemma EscapeInjective(a: string, b: string)
    requires EscapeText(a) == EscapeText(b)
    ensures a == b
  {
    UnescapeEscape(a);
    UnescapeEscape(b);
  }
}

=== FILE: lightbox.dfy ===
/**
 The page's single image viewer. Its state is the list of image URLs being
 shown, the current position, whether the overlay is displayed (inline
 `display: flex`), the `src` of the viewer's image and whether page scrolling
 is suppressed. Every handler is a total function from state to state.
 */
module Lightbox {
  import opened Values

  datatype State = State(
    images: seq<string>,
    index: int,
    shown: bool,         // the overlay's inline display is 'flex'
    src: string,         // the src attribute of the viewer's image
    scrollLocked: bool   // the body's overflow is 'hidden'
  )

  /** Before any interaction: nothing loaded, overlay not displayed. */
  const Initial := State([], 0, false, "", false)

  /**
   What every handler maintains: the position is inside a non-empty list and
   the image displayed is the one at that position; an empty list has
   position 0 and no image; scrolling is suppressed exactly while shown.
   */
  predicate Valid(s: State) {
    && (|s.images| == 0 ==> s.index == 0 && s.src == "")
    && (|s.images| > 0 ==> 0 <= s.index < |s.images| && s.src == s.images[s.index])
    && s.scrollLocked == s.shown
  }

  /** JavaScript's `%`: the remainder takes the sign of the dividend. */
  function JsRem(a: int, n: int): (r: int)
    requires n != 0
    ensures a >= 0 && n > 0 ==> r == a % n
    ensures a < 0 && n > 0 ==> -n < r <= 0
  {
    if a >= 0 then a % (if n > 0 then n else -n)
    else -((-a) % (if n > 0 then n else -n))
  }

  function Min(a: int, b: int): int { if a <= b then a else b }
  function Max(a: int, b: int): int { if a >= b then a else b }

  /**
   `openLightbox(images, index)`: a missing or empty list becomes `[]`; the
   requested position is clamped into the list, the image there is shown,
   the overlay is displayed and scrolling suppressed.
   */
  function Open(images: Option<seq<string>>, index: int): (r: State)
    ensures Valid(r) && r.shown
    ensures images.None? || images == Some([]) ==> r.images == [] && r.index == 0 && r.src == ""
    ensures images.Some? && |images.value| > 0 ==>
      && r.images == images.value
      && (0 <= index < |images.value| ==> r.index == index)
      && (index < 0 ==> r.index == 0)
      && (index >= |images.value| ==> r.index == |images.value| - 1)
  {
    var imgs := if images.Some? && |images.value| > 0 then images.value else [];
    var i := Max(0, Min(index, |imgs| - 1));
    // `lbImages[lbIndex] || ''`: an empty list has no element to show
    State(imgs, i, true, if 0 <= i < |imgs| then imgs[i] else "", true)
  }

  /** `closeLightbox()`: hides the overlay and forgets the list, whatever the state was. */
  function Close(s: State): (r: State)
    ensures Valid(r) && !r.shown && r.images == [] && r.index == 0 && r.src == ""
  {
    State([], 0, false, "", false)
  }

  /**
   The image attribute after `lightboxImg.src = lbImages[lbIndex]`; a
   position outside the list reads `undefined`, which the attribute stores as
   that text. No valid state reaches that case.
   */
  function ImageAt(images: seq<string>, i: int): string {
    if 0 <= i < |images| then images[i] else "undefined"
  }

  /** Forward from position `i` of `n` with JavaScript's `%`: the successor, or 0 after the last. */
  lemma WrapForward(i: int, n: int)
    requires n > 0
    ensures 0 <= i < n ==> JsRem(i + 1, n) == (if i + 1 == n then 0 else i + 1)
  {
  }

  /** Back from position `i` of `n` with JavaScript's `%`: the predecessor, or the last before 0. */
  lemma WrapBack(i: int, n: int)
    requires n > 0
    ensures 0 <= i < n ==> JsRem(i - 1 + n, n) == (if i == 0 then n - 1 else i - 1)
  {
  }

  /** `lbNext()`: nothing when the list is empty, otherwise one position forward, wrapping. */
  function Next(s: State): (r: State)
    ensures |s.images| == 0 ==> r == s
    ensures Valid(s) ==> Valid(r)
    ensures Valid(s) && |s.images| > 0 ==>
      r.index == (if s.index == |s.images| - 1 then 0 else s.index + 1)
    ensures r.images == s.images && r.shown == s.shown && r.scrollLocked == s.scrollLocked
  {
    if |s.images| == 0 then s
    else
      WrapForward(s.index, |s.images|);
      var i := JsRem(s.index + 1, |s.images|);
      s.(index := i, src := ImageAt(s.images, i))
  }

  /** `lbPrev()`: nothing when the list is empty, otherwise one position back, wrapping. */
  function Prev(s: State): (r: State)
    ensures |s.images| == 0 ==> r == s
    ensures Valid(s) ==> Valid(r)
    ensures Valid(s) && |s.images| > 0 ==>
      r.index == (if s.index == 0 then |s.images| - 1 else s.index - 1)
    ensures r.images == s.images && r.shown == s.shown && r.scrollLocked == s.scrollLocked
  {
    if |s.images| == 0 then s
    else
      WrapBack(s.index, |s.images|);
      var i := JsRem(s.index - 1 + |s.images|, |s.images|);
      s.(index := i, src := ImageAt(s.images, i))
  }

  /**
   The keydown handler: ignored unless the overlay is displayed; then Escape
   closes, ArrowRight moves forward, ArrowLeft moves back and any other key
   does nothing. The handler tests the three keys one after the other on the
   state the previous test left, which comes to the same thing.
   */
  function Keydown(s: State, key: string): (r: State)
    ensures r == (
      if !s.shown then s
      else if key == "Escape" then Close(s)
      else if key == "ArrowRight" then Next(s)
      else if key == "ArrowLeft" then Prev(s)
      else s)
  {
    if !s.shown then s
    else
      var s1 := if key == "Escape" then Close(s) else s;
      var s2 := if key == "ArrowRight" then Next(s1) else s1;
      if key == "ArrowLeft" then Prev(s2) else s2
  }

  /** Closing twice is closing once. */
  lemma CloseIdempotent(s: State)
    ensures Close(Close(s)) == Close(s) && Close(s) == Initial
  {
  }

  /** Forward then back, or back then forward, returns to the same state. */
  lemma NextPrevInverse(s: State)
    requires Valid(s)
    ensures Prev(Next(s)) == s
    ensures Next(Prev(s)) == s
  {
  }

  /** `Next` applied `k` times. */
  function NextN(s: State, k: nat): State {
    if k == 0 then s else Next(NextN(s, k - 1))
  }

  /** Stepping `a` times and then `b` times is stepping `a + b` times. */
  lemma {:induction false} NextNAdd(s: State, a: nat, b: nat)
    ensures NextN(NextN(s, a), b) == NextN(s, a + b)
  {
    if b > 0 {
      NextNAdd(s, a, b - 1);
    }
  }

  /** Up to one full turn, `k` steps forward land `k` positions further on, wrapping once. */
  lemma {:induction false} NextNIndex(s: State, k: nat)
    requires Valid(s) && 0 < |s.images| && k <= |s.images|
    ensures var j := if s.index + k < |s.images| then s.index + k else s.index + k - |s.images|;
      NextN(s, k) == s.(index := j, src := s.images[j])
  {
    if k > 0 {
      NextNIndex(s, k - 1);
    }
  }

  /** Going forward once per image comes back to where the viewer started. */
  lemma NextFullCycle(s: State)
    requires Valid(s)
    ensures NextN(s, |s.images|) == s
  {
    if |s.images| > 0 {
      NextNIndex(s, |s.images|);
    }
  }

  /** Forward navigation is periodic with the length of the list. */
  lemma NextNPeriodic(s: State, k: nat)
    requires Valid(s)
    ensures NextN(s, |s.images| + k) == NextN(s, k)
  {
    NextNAdd(s, |s.images|, k);
    NextFullCycle(s);
  }

  /** Opening three images and stepping forward three times visits 0, 1, 2 and wraps to 0. */
  lemma ThreeImageWalk()
    ensures var s0 := Open(Some(["x", "y", "z"]), 0);
      && s0.index == 0 && s0.src == "x"
      && Next(s0).index == 1 && Next(s0).src == "y"
      && Next(Next(s0)).index == 2 && Next(Next(s0)).src == "z"
      && Next(Next(Next(s0))).index == 0 && Next(Next(Next(s0))).src == "x"
  {
  }

  /** Opened with no images, the arrows change nothing. */
  lemma EmptyNavigation()
    ensures var s0 := Open(Some([]), 0);
      Next(s0) == s0 && Prev(s0) == s0
      && Keydown(s0, "ArrowRight") == s0 && Keydown(s0, "ArrowLeft") == s0
  {
  }

  /** The events that reach the viewer. */
  datatype Event =
    | OpenGallery(images: Option<seq<string>>, index: int)  // a card's View button or thumbnail
    | CloseButton
    | OverlayClick(onBackdrop: bool)  // a click inside the overlay; closes only on the backdrop itself
    | PrevButton
    | NextButton
    | KeyPress(key: string)

  function Step(s: State, e: Event): State {
    match e
    case OpenGallery(images, index) => Open(images, index)
    case CloseButton => Close(s)
    case OverlayClick(onBackdrop) => if onBackdrop then Close(s) else s
    case PrevButton => Prev(s)
    case NextButton => Next(s)
    case KeyPress(key) => Keydown(s, key)
  }

  /** The state after a sequence of events. */
  function Run(s: State, events: seq<Event>): State
    decreases |events|
  {
    if |events| == 0 then s else Run(Step(s, events[0]), events[1..])
  }

  /** Every state the page can reach is valid. */
  lemma {:induction false} RunValid(s: State, events: seq<Event>)
    requires Valid(s)
    ensures Valid(Run(s, events))
    decreases |events|
  {
    if |events| > 0 {
      RunValid(Step(s, events[0]), events[1..]);
    }
  }

  lemma InitialValid()
    ensures Valid(Initial) && !Initial.shown
  {
  }
}

=== FILE: record.dfy ===
/**
 The property record both converters emit, the parsed CSV row they start
 from, and the members of the JSON object a record serialises to.
 */
module Record {
  import opened Values

  /**
   A data row as the CSV reader hands it over: column name to cell text. A
   column the row lacks is a key the map lacks.
   */
  type Row = map<string, string>

  /** The cell of a column, or None (`undefined` / `None`) when the row lacks it. */
  function Cell(row: Row, column: string): (r: Option<string>)
    ensures r.Some? <==> column in row
    ensures r.Some? ==> r.value == row[column]
  {
    if column in row then Some(row[column]) else None
  }

  /** One converted listing: twenty-one fields, always all present. */
  datatype Property = Property(
    id: string,
    title: string,
    slug: string,
    address: string,
    city: string,
    neighborhood: string,
    price: Option<Float>,
    priceCurrency: string,
    beds: Option<Float>,
    baths: Option<Float>,
    furnished: string,
    areaSqm: Option<Float>,
    propertyType: string,
    availability: string,
    featured: bool,
    description: string,
    images: seq<string>,
    contactPhone: string,
    listingUrl: string,
    lat: Option<Float>,
    lng: Option<Float>
  )

  /** Every text field of `p` is the row's cell, or the empty string when the row lacks it. */
  predicate TextFieldsFrom(p: Property, row: Row) {
    && p.id == Cell(row, "id").GetOr("")
    && p.title == Cell(row, "title").GetOr("")
    && p.slug == Cell(row, "slug").GetOr("")
    && p.address == Cell(row, "address").GetOr("")
    && p.city == Cell(row, "city").GetOr("")
    && p.neighborhood == Cell(row, "neighborhood").GetOr("")
    && p.priceCurrency == Cell(row, "price_currency").GetOr("")
    && p.furnished == Cell(row, "furnished").GetOr("")
    && p.propertyType == Cell(row, "type").GetOr("")
    && p.availability == Cell(row, "availability").GetOr("")
    && p.description == Cell(row, "description").GetOr("")
    && p.contactPhone == Cell(row, "contact_phone").GetOr("")
    && p.listingUrl == Cell(row, "listing_url").GetOr("")
  }

  /** Two records whose text fields come from the same row and whose other fields agree are one record. */
  lemma SameFields(a: Property, b: Property, row: Row)
    requires TextFieldsFrom(a, row) && TextFieldsFrom(b, row)
    requires a.price == b.price && a.beds == b.beds && a.baths == b.baths
    requires a.areaSqm == b.areaSqm && a.lat == b.lat && a.lng == b.lng
    requires a.featured == b.featured && a.images == b.images
    ensures a == b
  {
  }

  /** The keys of a serialised record. */
  const Keys: seq<string> := [
    "id", "title", "slug", "address", "city", "neighborhood", "price",
    "price_currency", "beds", "baths", "furnished", "area_sqm", "type",
    "availability", "featured", "description", "images", "contact_phone",
    "listing_url", "lat", "lng"
  ]

  function NumberJson(n: Option<Float>): Json {
    match n
    case None => JNull
    case Some(f) => JNumber(f)
  }

  function StringsJson(xs: seq<string>): (r: seq<Json>)
    ensures |r| == |xs| && forall i :: 0 <= i < |xs| ==> r[i] == JString(xs[i])
  {
    if |xs| == 0 then [] else [JString(xs[0])] + StringsJson(xs[1..])
  }

  /**
   The object a record becomes when serialised, as its members in the order
   they are written: every key once, `null` for a missing number.
   */
  function ToJson(p: Property): (m: seq<(string, Json)>)
    ensures |m| == |Keys| && forall i :: 0 <= i < |m| ==> m[i].0 == Keys[i]
  {
    [
      ("id", JString(p.id)), ("title", JString(p.title)), ("slug", JString(p.slug)),
      ("address", JString(p.address)), ("city", JString(p.city)),
      ("neighborhood", JString(p.neighborhood)), ("price", NumberJson(p.price)),
      ("price_currency", JString(p.priceCurrency)), ("beds", NumberJson(p.beds)),
      ("baths", NumberJson(p.baths)), ("furnished", JString(p.furnished)),
      ("area_sqm", NumberJson(p.areaSqm)), ("type", JString(p.propertyType)),
      ("availability", JString(p.availability)), ("featured", JBool(p.featured)),
      ("description", JString(p.description)), ("images", JArray(StringsJson(p.images))),
      ("contact_phone", JString(p.contactPhone)), ("listing_url", JString(p.listingUrl)),
      ("lat", NumberJson(p.lat)), ("lng", NumberJson(p.lng))
    ]
  }

  /** The value of the first member named `k`, or None when no member has that name. */
  function Lookup(m: seq<(string, Json)>, k: string): Option<Json> {
    if |m| == 0 then None
    else if m[0].0 == k then Some(m[0].1)
    else Lookup(m[1..], k)
  }

  /** A member whose name no earlier member carries is the one a lookup finds. */
  lemma {:induction false} LookupAt(m: seq<(string, Json)>, i: nat)
    requires i < |m|
    requires forall j :: 0 <= j < i ==> m[j].0 != m[i].0
    ensures Lookup(m, m[i].0) == Some(m[i].1)
  {
    if i > 0 {
      assert forall j :: 0 <= j < i - 1 ==> m[1..][j] == m[j + 1];
      LookupAt(m[1..], i - 1);
    }
  }

  /** A JSON string read back as text. */
  function AsString(v: Json): Option<string> {
    match v
    case JString(s) => Some(s)
    case _ => None
  }

  /** A JSON number or `null` read back as an optional number. */
  function AsNumber(v: Json): Option<Option<Float>> {
    match v
    case JNull => Some(None)
    case JNumber(f) => Some(Some(f))
    case _ => None
  }

  /** A JSON boolean read back. */
  function AsBool(v: Json): Option<bool> {
    match v
    case JBool(b) => Some(b)
    case _ => None
  }

  /** A JSON array of strings read back as a list of texts. */
  function AsStrings(items: seq<Json>): Option<seq<string>> {
    if |items| == 0 then Some([])
    else match (items[0], AsStrings(items[1..]))
      case (JString(s), Some(rest)) => Some([s] + rest)
      case _ => None
  }

  /** A JSON array read back as a list of texts. */
  function AsList(v: Json): Option<seq<string>> {
    match v
    case JArray(items) => AsStrings(items)
    case _ => None
  }

  /** Every text of a list survives the trip through a JSON array. */
  lemma {:induction false} AsStringsOf(xs: seq<string>)
    ensures AsStrings(StringsJson(xs)) == Some(xs)
  {
    if |xs| > 0 {
      assert StringsJson(xs)[1..] == StringsJson(xs[1..]);
      AsStringsOf(xs[1..]);
      assert xs == [xs[0]] + xs[1..];
    }
  }

  /** The members of `m` carry the twenty-one keys, in order. */
  predicate KeyedLikeRecord(m: seq<(string, Json)>) {
    |m| == |Keys| && forall i :: 0 <= i < |m| ==> m[i].0 == Keys[i]
  }

  /**
   A serialised record read back: each field from the member under its own
   key, None when the keys differ or a member holds a value of the wrong kind.
   `ReadByKey` shows that reading by position here is reading by key.
   */
  function FromJson(m: seq<(string, Json)>): Option<Property> {
    if !KeyedLikeRecord(m) then None
    else
      var id, title, slug := AsString(m[0].1), AsString(m[1].1), AsString(m[2].1);
      var address, city, neighborhood := AsString(m[3].1), AsString(m[4].1), AsString(m[5].1);
      var price, currency, beds := AsNumber(m[6].1), AsString(m[7].1), AsNumber(m[8].1);
      var baths, furnished, area := AsNumber(m[9].1), AsString(m[10].1), AsNumber(m[11].1);
      var kind, availability, featured := AsString(m[12].1), AsString(m[13].1), AsBool(m[14].1);
      var description, images, phone := AsString(m[15].1), AsList(m[16].1), AsString(m[17].1);
      var url, lat, lng := AsString(m[18].1), AsNumber(m[19].1), AsNumber(m[20].1);
      if && id.Some? && title.Some? && slug.Some? && address.Some? && city.Some?
         && neighborhood.Some? && price.Some? && currency.Some? && beds.Some?
         && baths.Some? && furnished.Some? && area.Some? && kind.Some?
         && availability.Some? && featured.Some? && description.Some? && images.Some?
         && phone.Some? && url.Some? && lat.Some? && lng.Some?
      then
        Some(Property(
          id.value, title.value, slug.value, address.value, city.value,
          neighborhood.value, price.value, currency.value, beds.value, baths.value,
          furnished.value, area.value, kind.value, availability.value, featured.value,
          description.value, images.value, phone.value, url.value, lat.value, lng.value))
      else
        None
  }

  /**
   In an object keyed like a record, looking a key up finds the member at
   that key's position, so `JSON.parse` followed by member access reads what
   `FromJson` reads.
   */
  lemma ReadByKey(m: seq<(string, Json)>)
    requires KeyedLikeRecord(m)
    ensures forall i :: 0 <= i < |Keys| ==> Lookup(m, Keys[i]) == Some(m[i].1)
  {
    KeysDistinct();
    forall i | 0 <= i < |Keys|
      ensures Lookup(m, Keys[i]) == Some(m[i].1)
    {
      LookupAt(m, i);
    }
  }

  /**
   Reading a serialised record back gives the record: each key carries its
   own field's value, so no two fields share or swap a member.
   */
  lemma JsonRoundTrip(p: Property)
    ensures FromJson(ToJson(p)) == Some(p)
  {
    TextReadsBack(p);
    OthersReadBack(p);
    Decodes(ToJson(p), p);
  }

  /** The text members of a serialised record read back as the text fields. */
  lemma TextReadsBack(p: Property)
    ensures var m := ToJson(p);
      && KeyedLikeRecord(m)
      && AsString(m[0].1) == Some(p.id) && AsString(m[1].1) == Some(p.title)
      && AsString(m[2].1) == Some(p.slug) && AsString(m[3].1) == Some(p.address)
      && AsString(m[4].1) == Some(p.city) && AsString(m[5].1) == Some(p.neighborhood)
      && AsString(m[7].1) == Some(p.priceCurrency) && AsString(m[10].1) == Some(p.furnished)
      && AsString(m[12].1) == Some(p.propertyType) && AsString(m[13].1) == Some(p.availability)
      && AsString(m[15].1) == Some(p.description) && AsString(m[17].1) == Some(p.contactPhone)
      && AsString(m[18].1) == Some(p.listingUrl)
  {
  }

  /** The number, flag and image members of a serialised record read back as those fields. */
  lemma OthersReadBack(p: Property)
    ensures var m := ToJson(p);
      && AsNumber(m[6].1) == Some(p.price) && AsNumber(m[8].1) == Some(p.beds)
      && AsNumber(m[9].1) == Some(p.baths) && AsNumber(m[11].1) == Some(p.areaSqm)
      && AsBool(m[14].1) == Some(p.featured) && AsList(m[16].1) == Some(p.images)
      && AsNumber(m[19].1) == Some(p.lat) && AsNumber(m[20].1) == Some(p.lng)
  {
    AsStringsOf(p.images);
    AsNumberOf(p.price); AsNumberOf(p.beds); AsNumberOf(p.baths);
    AsNumberOf(p.areaSqm); AsNumberOf(p.lat); AsNumberOf(p.lng);
  }

  /** An object keyed like a record whose members read back as the fields of `p` reads back as `p`. */
  lemma Decodes(m: seq<(string, Json)>, p: Property)
    requires KeyedLikeRecord(m)
    requires && AsString(m[0].1) == Some(p.id) && AsString(m[1].1) == Some(p.title)
      && AsString(m[2].1) == Some(p.slug) && AsString(m[3].1) == Some(p.address)
      && AsString(m[4].1) == Some(p.city) && AsString(m[5].1) == Some(p.neighborhood)
      && AsNumber(m[6].1) == Some(p.price) && AsString(m[7].1) == Some(p.priceCurrency)
      && AsNumber(m[8].1) == Some(p.beds) && AsNumber(m[9].1) == Some(p.baths)
      && AsString(m[10].1) == Some(p.furnished) && AsNumber(m[11].1) == Some(p.areaSqm)
      && AsString(m[12].1) == Some(p.propertyType) && AsString(m[13].1) == Some(p.availability)
      && AsBool(m[14].1) == Some(p.featured) && AsString(m[15].1) == Some(p.description)
      && AsList(m[16].1) == Some(p.images) && AsString(m[17].1) == Some(p.contactPhone)
      && AsString(m[18].1) == Some(p.listingUrl) && AsNumber(m[19].1) == Some(p.lat)
      && AsNumber(m[20].1) == Some(p.lng)
    ensures FromJson(m) == Some(p)
  {
  }

  /** A number or `null` reads back as itself. */
  lemma AsNumberOf(n: Option<Float>)
    ensures AsNumber(NumberJson(n)) == Some(n)
  {
  }

  /** Distinct records serialise to distinct objects. */
  lemma ToJsonInjective(p: Property, q: Property)
    requires ToJson(p) == ToJson(q)
    ensures p == q
  {
    JsonRoundTrip(p);
    JsonRoundTrip(q);
  }

  /** The twenty-one keys are distinct. */
  lemma KeysDistinct()
    ensures |Keys| == 21
    ensures forall i, j :: 0 <= i < j < |Keys| ==> Keys[i] != Keys[j]
  {
  }
}

=== FILE: text.dfy ===
/**
 String helpers shared by the renderer and both converters: digit filtering,
 comma deletion, whitespace trimming (whose character set differs between
 JavaScript and Python), ASCII lower-casing and splitting on a separator.
 */
module Text {
  import opened Values

  predicate IsDigit(c: char) {
    '0' <= c <= '9'
  }

  /** `t` can be obtained from `s` by deleting characters, keeping order. */
  predicate IsSubsequence(t: string, s: string)
    decreases |s|
  {
    if |t| == 0 then true
    else if |s| == 0 then false
    else if t[0] == s[0] then IsSubsequence(t[1..], s[1..])
    else IsSubsequence(t, s[1..])
  }

  /**
   Keeps the characters `0`-`9` of `s` and drops every other one, the effect of
   replacing `/[^0-9]/g` by the empty string. The result holds only digits,
   every digit of `s` as often as `s` does, and is ordered as in `s`.
   */
  function Digits(s: string): (r: string)
    ensures forall i :: 0 <= i < |r| ==> IsDigit(r[i])
    ensures forall c | IsDigit(c) :: multiset(r)[c] == multiset(s)[c]
    ensures IsSubsequence(r, s)
  {
    if |s| == 0 then ""
    else
      assert s == [s[0]] + s[1..];
      var rest := Digits(s[1..]);
      if IsDigit(s[0]) then [s[0]] + rest else rest
  }

  /** Deletes every `,`: JavaScript's `replace(/,/g, '')` and Python's `replace(',', '')`. */
  function DeleteCommas(s: string): (r: string)
    ensures ',' !in r
    ensures forall c | c != ',' :: multiset(r)[c] == multiset(s)[c]
    ensures IsSubsequence(r, s)
  {
    if |s| == 0 then ""
    else
      assert s == [s[0]] + s[1..];
      var rest := DeleteCommas(s[1..]);
      if s[0] == ',' then rest else [s[0]] + rest
  }

  /** A string without commas is left unchanged by comma deletion. */
  lemma {:induction false} DeleteCommasNoComma(s: string)
    requires ',' !in s
    ensures DeleteCommas(s) == s
  {
    if |s| > 0 {
      assert s[0] != ',';
      assert ',' !in s[1..];
      DeleteCommasNoComma(s[1..]);
    }
  }

  /** A string of commas only is deleted entirely. */
  lemma {:induction false} DeleteCommasOnlyCommas(s: string)
    requires forall i :: 0 <= i < |s| ==> s[i] == ','
    ensures DeleteCommas(s) == ""
  {
    if |s| > 0 {
      assert forall i :: 0 <= i < |s[1..]| ==> s[1..][i] == s[i + 1];
      DeleteCommasOnlyCommas(s[1..]);
    }
  }

  /** Deleting commas twice is deleting them once. */
  lemma DeleteCommasIdempotent(s: string)
    ensures DeleteCommas(DeleteCommas(s)) == DeleteCommas(s)
  {
    DeleteCommasNoComma(DeleteCommas(s));
  }

  /** The two languages' trimming functions strip different character sets. */
  datatype Flavor = JavaScript | Python

  /**
   Whitespace as `String.prototype.trim` (ECMAScript WhiteSpace and
   LineTerminator) and `str.strip()` (Python's `str.isspace`) see it. Both
   include the ASCII controls 9-13, the space separators of Unicode category
   Zs and U+2028/U+2029; only JavaScript includes U+FEFF, only Python includes
   U+001C-U+001F and U+0085.
   */
  predicate IsSpace(f: Flavor, c: char) {
    || '\t' <= c <= '\r'
    || c == ' ' || c == '\U{A0}' || c == '\U{1680}'
    || '\U{2000}' <= c <= '\U{200A}'
    || c == '\U{2028}' || c == '\U{2029}' || c == '\U{202F}' || c == '\U{205F}' || c == '\U{3000}'
    || (f == JavaScript && c == '\U{FEFF}')
    || (f == Python && ('\U{1C}' <= c <= '\U{1F}' || c == '\U{85}'))
  }

  /** `s` neither starts nor ends with whitespace. */
  predicate Trimmed(f: Flavor, s: string) {
    |s| > 0 ==> !IsSpace(f, s[0]) && !IsSpace(f, s[|s| - 1])
  }

  /** Every character of `s` is whitespace. */
  predicate AllSpace(f: Flavor, s: string) {
    |s| == 0 || (IsSpace(f, s[0]) && AllSpace(f, s[1..]))
  }

  lemma {:induction false} AllSpaceAppend(f: Flavor, a: string, b: string)
    requires AllSpace(f, a) && AllSpace(f, b)
    ensures AllSpace(f, a + b)
  {
    if |a| == 0 {
      assert a + b == b;
    } else {
      assert (a + b)[1..] == a[1..] + b;
      AllSpaceAppend(f, a[1..], b);
    }
  }

  /** A whitespace character in front of a whitespace prefix of the rest. */
  lemma SpaceBefore(f: Flavor, s: string, n: nat)
    requires 1 <= n <= |s| && IsSpace(f, s[0]) && AllSpace(f, s[1..][..n - 1])
    ensures AllSpace(f, s[..n])
  {
    assert s[..n][1..] == s[1..][..n - 1];
  }

  /** A whitespace suffix of all but the last character, then that character, whitespace too. */
  lemma SpaceAfter(f: Flavor, s: string, m: nat)
    requires m < |s| && IsSpace(f, s[|s| - 1]) && AllSpace(f, s[..|s| - 1][m..])
    ensures AllSpace(f, s[m..])
  {
    assert s[m..] == s[..|s| - 1][m..] + [s[|s| - 1]];
    AllSpaceAppend(f, s[..|s| - 1][m..], [s[|s| - 1]]);
  }

  /** Drops leading whitespace: `s` is whitespace followed by the result. */
  function TrimStart(f: Flavor, s: string): (r: string)
    ensures |r| <= |s| && r == s[|s| - |r|..]
    ensures |r| > 0 ==> !IsSpace(f, r[0])
    ensures AllSpace(f, s[..|s| - |r|])
  {
    if |s| > 0 && IsSpace(f, s[0]) then
      var r := TrimStart(f, s[1..]);
      assert s[1..][|s| - 1 - |r|..] == s[|s| - |r|..];
      SpaceBefore(f, s, |s| - |r|);
      r
    else s
  }

  /** Drops trailing whitespace: `s` is the result followed by whitespace. */
  function TrimEnd(f: Flavor, s: string): (r: string)
    ensures |r| <= |s| && r == s[..|r|]
    ensures |r| > 0 ==> !IsSpace(f, r[|r| - 1])
    ensures AllSpace(f, s[|r|..])
  {
    if |s| > 0 && IsSpace(f, s[|s| - 1]) then
      var r := TrimEnd(f, s[..|s| - 1]);
      assert s[..|s| - 1][..|r|] == s[..|r|];
      SpaceAfter(f, s, |r|);
      r
    else s
  }

  /** Cutting `s` at `i` and its rest `t` at `m` gives three consecutive parts of `s`. */
  lemma ThreeParts<T>(s: seq<T>, i: nat, t: seq<T>, m: nat)
    requires i <= |s| && t == s[i..] && m <= |t|
    ensures s == s[..i] + t[..m] + t[m..]
  {
    assert s == s[..i] + s[i..];
    assert t == t[..m] + t[m..];
  }

  /**
   `trim()` / `strip()`: `s` without its leading and trailing whitespace, so a
   run of characters of `s` that neither starts nor ends in whitespace.
   */
  function Strip(f: Flavor, s: string): (r: string)
    ensures |r| <= |s|
    ensures Trimmed(f, r)
  {
    var t := TrimStart(f, s);
    var r := TrimEnd(f, t);
    assert |r| > 0 ==> r[0] == t[0];
    r
  }

  /**
   Only whitespace is cut: `s` is whitespace, then its strip, then whitespace.
   With `Trimmed` of the strip, this leaves exactly one possible result.
   */
  lemma StripSurround(f: Flavor, s: string)
    ensures exists a, b {:trigger AllSpace(f, a), AllSpace(f, b)} ::
              s == a + Strip(f, s) + b && AllSpace(f, a) && AllSpace(f, b)
  {
    var t := TrimStart(f, s);
    var r := TrimEnd(f, t);
    var a, b := s[..|s| - |t|], t[|r|..];
    assert s == a + r + b by {
      ThreeParts(s, |s| - |t|, t, |r|);
    }
    Surrounded(f, s, a, Strip(f, s), b);
  }

  /** `s` is `r` with whitespace around it, as witnessed by `a` and `b`. */
  lemma Surrounded(f: Flavor, s: string, a: string, r: string, b: string)
    requires s == a + r + b && AllSpace(f, a) && AllSpace(f, b)
    ensures exists a', b' {:trigger AllSpace(f, a'), AllSpace(f, b')} ::
              s == a' + r + b' && AllSpace(f, a') && AllSpace(f, b')
  {
  }

  /** A string with no surrounding whitespace is its own strip. */
  lemma StripFixed(f: Flavor, s: string)
    requires Trimmed(f, s)
    ensures Strip(f, s) == s
  {
  }

  lemma StripIdempotent(f: Flavor, s: string)
    ensures Strip(f, Strip(f, s)) == Strip(f, s)
  {
    StripFixed(f, Strip(f, s));
  }

  lemma DropKeepsOut<T>(s: seq<T>, i: nat, c: T)
    requires c !in s && i <= |s|
    ensures c !in s[i..]
  {
    assert forall k :: 0 <= k < |s| - i ==> s[i..][k] == s[i + k];
  }

  lemma TakeKeepsOut<T>(s: seq<T>, n: nat, c: T)
    requires c !in s && n <= |s|
    ensures c !in s[..n]
  {
    assert forall k :: 0 <= k < n ==> s[..n][k] == s[k];
  }

  /** A character that `s` lacks is lacking from its strip too. */
  lemma StripKeepsOut(f: Flavor, s: string, c: char)
    requires c !in s
    ensures c !in Strip(f, s)
  {
    var t := TrimStart(f, s);
    DropKeepsOut(s, |s| - |t|, c);
    var r := TrimEnd(f, t);
    TakeKeepsOut(t, |r|, c);
  }

  /** The characters both languages agree on: whitespace to both, or to neither. */
  predicate SpacesAgree(c: char) {
    IsSpace(JavaScript, c) == IsSpace(Python, c)
  }

  /** The characters the two trimming functions disagree on are exactly U+FEFF, U+1C-U+1F and U+85. */
  lemma SpacesDisagree(c: char)
    ensures !SpacesAgree(c) <==> c == '\U{FEFF}' || '\U{1C}' <= c <= '\U{1F}' || c == '\U{85}'
  {
  }

  lemma {:induction false} TrimStartAgree(s: string)
    requires forall i :: 0 <= i < |s| ==> SpacesAgree(s[i])
    ensures TrimStart(JavaScript, s) == TrimStart(Python, s)
  {
    if |s| > 0 && IsSpace(JavaScript, s[0]) {
      assert forall i :: 0 <= i < |s[1..]| ==> s[1..][i] == s[i + 1];
      TrimStartAgree(s[1..]);
    }
  }

  lemma {:induction false} TrimEndAgree(s: string)
    requires forall i :: 0 <= i < |s| ==> SpacesAgree(s[i])
    ensures TrimEnd(JavaScript, s) == TrimEnd(Python, s)
  {
    if |s| > 0 && IsSpace(JavaScript, s[|s| - 1]) {
      assert forall i :: 0 <= i < |s[..|s| - 1]| ==> s[..|s| - 1][i] == s[i];
      TrimEndAgree(s[..|s| - 1]);
    }
  }

  /** Without a character the two languages disagree on, `trim()` and `strip()` coincide. */
  lemma StripAgree(s: string)
    requires forall i :: 0 <= i < |s| ==> SpacesAgree(s[i])
    ensures Strip(JavaScript, s) == Strip(Python, s)
  {
    TrimStartAgree(s);
    var t := TrimStart(JavaScript, s);
    assert forall i :: 0 <= i < |t| ==> t[i] == s[|s| - |t| + i];
    TrimEndAgree(t);
  }

  /** ASCII lower-casing of one character; every other character is left as it is. */
  function LowerChar(c: char): char {
    if 'A' <= c <= 'Z' then c - 'A' + 'a' else c
  }

  /** ASCII lower-casing of a text: no capital letter is left, nothing else changes. */
  function LowerAscii(s: string): (r: string)
    ensures |r| == |s|
    ensures forall i :: 0 <= i < |r| ==> !('A' <= r[i] <= 'Z')
    ensures forall i :: 0 <= i < |s| && !('A' <= s[i] <= 'Z') ==> r[i] == s[i]
    ensures forall i :: 0 <= i < |s| ==> r[i] == LowerChar(s[i])
  {
    seq(|s|, i requires 0 <= i < |s| => LowerChar(s[i]))
  }

  /**
   `s.split(sep)` in both languages for a one-character separator: the pieces
   between separators, so `n` separators give `n + 1` pieces.
   */
  function SplitOn(s: string, sep: char): (r: seq<string>)
    ensures |r| >= 1
    ensures forall k :: 0 <= k < |r| ==> sep !in r[k]
  {
    if |s| == 0 then [""]
    else
      var rest := SplitOn(s[1..], sep);
      if s[0] == sep then [""] + rest
      else [[s[0]] + rest[0]] + rest[1..]
  }

  /** Every character of a piece is a character of the split text. */
  lemma {:induction false} SplitOnChars(s: string, sep: char)
    ensures forall k, i :: 0 <= k < |SplitOn(s, sep)| && 0 <= i < |SplitOn(s, sep)[k]| ==>
      SplitOn(s, sep)[k][i] in s
  {
    if |s| > 0 {
      SplitOnChars(s[1..], sep);
      var rest := SplitOn(s[1..], sep);
      assert forall c :: c in s[1..] ==> c in s;
      if s[0] != sep {
        var head := [s[0]] + rest[0];
        assert forall i :: 1 <= i < |head| ==> head[i] == rest[0][i - 1];
      }
    }
  }

  /** `sep.join(xs)` / `xs.join(sep)`. */
  function Join(xs: seq<string>, sep: char): string {
    if |xs| == 0 then ""
    else if |xs| == 1 then xs[0]
    else xs[0] + [sep] + Join(xs[1..], sep)
  }

  /** Joining the pieces of a split with the separator gives back the string. */
  lemma {:induction false} JoinSplit(s: string, sep: char)
    ensures Join(SplitOn(s, sep), sep) == s
  {
    if |s| > 0 {
      var rest := SplitOn(s[1..], sep);
      JoinSplit(s[1..], sep);
      if s[0] == sep {
        assert SplitOn(s, sep) == [""] + rest;
        assert Join(SplitOn(s, sep), sep) == "" + [sep] + Join(rest, sep);
        assert s == [s[0]] + s[1..];
      } else {
        var r := SplitOn(s, sep);
        assert r == [[s[0]] + rest[0]] + rest[1..];
        if |rest| == 1 {
          assert Join(r, sep) == [s[0]] + rest[0];
        } else {
          assert r[1..] == rest[1..];
          assert Join(r, sep) == [s[0]] + rest[0] + [sep] + Join(rest[1..], sep);
          assert Join(rest, sep) == rest[0] + [sep] + Join(rest[1..], sep);
        }
        assert s == [s[0]] + s[1..];
      }
    }
  }

  /** Splitting at a separator splits the two sides independently. */
  lemma {:induction false} SplitAround(a: string, b: string, sep: char)
    ensures SplitOn(a + [sep] + b, sep) == SplitOn(a, sep) + SplitOn(b, sep)
  {
    var s := a + [sep] + b;
    if |a| == 0 {
      assert s[1..] == b;
    } else {
      assert s[1..] == a[1..] + [sep] + b;
      SplitAround(a[1..], b, sep);
    }
  }

  /** A string without the separator is a single piece. */
  lemma {:induction false} SplitNoSep(s: string, sep: char)
    requires sep !in s
    ensures SplitOn(s, sep) == [s]
  {
    if |s| > 0 {
      assert sep !in s[1..];
      SplitNoSep(s[1..], sep);
      assert s == [s[0]] + s[1..];
    }
  }

  /** Splitting a join of separator-free pieces gives back the pieces. */
  lemma {:induction false} SplitJoin(xs: seq<string>, sep: char)
    requires |xs| >= 1
    requires forall k :: 0 <= k < |xs| ==> sep !in xs[k]
    ensures SplitOn(Join(xs, sep), sep) == xs
  {
    if |xs| == 1 {
      SplitNoSep(xs[0], sep);
    } else {
      SplitJoin(xs[1..], sep);
      SplitAround(xs[0], Join(xs[1..], sep), sep);
      SplitNoSep(xs[0], sep);
      assert xs == [xs[0]] + xs[1..];
    }
  }

  /** `s.trim()` / `p.strip()` of every piece, in order. */
  function StripAll(f: Flavor, ps: seq<string>): (r: seq<string>)
    ensures |r| == |ps|
    ensures forall k :: 0 <= k < |ps| ==> r[k] == Strip(f, ps[k])
  {
    if |ps| == 0 then [] else [Strip(f, ps[0])] + StripAll(f, ps[1..])
  }

  lemma {:induction false} StripAllAppend(f: Flavor, xs: seq<string>, ys: seq<string>)
    ensures StripAll(f, xs + ys) == StripAll(f, xs) + StripAll(f, ys)
  {
    if |xs| == 0 {
      assert xs + ys == ys;
    } else {
      assert (xs + ys)[0] == xs[0];
      assert (xs + ys)[1..] == xs[1..] + ys;
      StripAllAppend(f, xs[1..], ys);
    }
  }

  /** `filter(Boolean)` / `if p.strip()` on text: the empty string is the only falsy one. */
  predicate NonEmpty(s: string) {
    s != ""
  }

  /**
   What both converters do with the pieces of the `images` column: strip each
   piece and keep the non-empty ones, in order.
   */
  function CleanPieces(f: Flavor, ps: seq<string>): (r: seq<string>)
    ensures |r| <= |ps|
    ensures forall k :: 0 <= k < |r| ==> r[k] != "" && Trimmed(f, r[k])
  {
    var stripped := StripAll(f, ps);
    FilterKeeps(NonEmpty, s => Trimmed(f, s), stripped);
    Filter(NonEmpty, stripped)
  }

  lemma CleanPiecesAppend(f: Flavor, xs: seq<string>, ys: seq<string>)
    ensures CleanPieces(f, xs + ys) == CleanPieces(f, xs) + CleanPieces(f, ys)
  {
    StripAllAppend(f, xs, ys);
    FilterAppend(NonEmpty, StripAll(f, xs), StripAll(f, ys));
  }

  /** Pieces that contain no forbidden character keep that property when cleaned. */
  lemma CleanPiecesKeepsOut(f: Flavor, ps: seq<string>, c: char)
    requires forall k :: 0 <= k < |ps| ==> c !in ps[k]
    ensures forall k :: 0 <= k < |CleanPieces(f, ps)| ==> c !in CleanPieces(f, ps)[k]
  {
    var stripped := StripAll(f, ps);
    forall k | 0 <= k < |stripped|
      ensures c !in stripped[k]
    {
      StripKeepsOut(f, ps[k], c);
    }
    FilterKeeps(NonEmpty, s => c !in s, stripped);
  }

  /** Cleaning an already-clean list changes nothing. */
  lemma CleanPiecesFixed(f: Flavor, ps: seq<string>)
    requires forall k :: 0 <= k < |ps| ==> ps[k] != "" && Trimmed(f, ps[k])
    ensures CleanPieces(f, ps) == ps
  {
    forall k | 0 <= k < |ps|
      ensures Strip(f, ps[k]) == ps[k]
    {
      StripFixed(f, ps[k]);
    }
    assert StripAll(f, ps) == ps;
    FilterAll(NonEmpty, ps);
  }

  /** One piece: its strip when that is not empty, and nothing when the piece is blank. */
  lemma CleanPiecesSingle(f: Flavor, p: string)
    ensures CleanPieces(f, [p]) == if Strip(f, p) == "" then [] else [Strip(f, p)]
  {
    assert StripAll(f, [p]) == [Strip(f, p)];
    assert Filter(NonEmpty, [Strip(f, p)]) == (if Strip(f, p) == "" then [] else [Strip(f, p)]) + Filter(NonEmpty, []);
  }

  /** Pieces without a character the languages disagree on are cleaned alike by both. */
  lemma CleanPiecesAgree(ps: seq<string>)
    requires forall k, i :: 0 <= k < |ps| && 0 <= i < |ps[k]| ==> SpacesAgree(ps[k][i])
    ensures CleanPieces(JavaScript, ps) == CleanPieces(Python, ps)
  {
    forall k | 0 <= k < |ps|
      ensures Strip(JavaScript, ps[k]) == Strip(Python, ps[k])
    {
      StripAgree(ps[k]);
    }
    assert StripAll(JavaScript, ps) == StripAll(Python, ps);
  }

  /** An image list as the converters emit it: entries non-empty, stripped and free of `;`. */
  predicate CleanList(f: Flavor, xs: seq<string>) {
    forall k :: 0 <= k < |xs| ==> xs[k] != "" && Trimmed(f, xs[k]) && ';' !in xs[k]
  }

  /**
   The `images` column as both converters read it: split at `;`, each piece
   stripped, empty pieces dropped. Every entry is non-empty, stripped and
   free of `;`.
   */
  function ImagePieces(f: Flavor, s: string): (r: seq<string>)
    ensures CleanList(f, r)
  {
    CleanPiecesKeepsOut(f, SplitOn(s, ';'), ';');
    CleanPieces(f, SplitOn(s, ';'))
  }

  /** Without a character the languages disagree on, both read the `images` column alike. */
  lemma ImagePiecesAgree(s: string)
    requires forall i :: 0 <= i < |s| ==> SpacesAgree(s[i])
    ensures ImagePieces(JavaScript, s) == ImagePieces(Python, s)
  {
    SplitOnChars(s, ';');
    CleanPiecesAgree(SplitOn(s, ';'));
  }

  lemma ImagePiecesEmpty(f: Flavor)
    ensures ImagePieces(f, "") == []
  {
    assert SplitOn("", ';') == [""];
    assert StripAll(f, [""]) == [""];
    assert Filter(NonEmpty, [""]) == [] + Filter(NonEmpty, []);
  }

  /** A text without `;` and not blank is read as one entry, its strip. */
  lemma ImagePiecesOne(f: Flavor, s: string)
    requires ';' !in s && Strip(f, s) != ""
    ensures ImagePieces(f, s) == [Strip(f, s)]
  {
    SplitNoSep(s, ';');
    assert StripAll(f, [s]) == [Strip(f, s)];
    FilterAll(NonEmpty, [Strip(f, s)]);
  }

  /** A text without `;` that is blank (whitespace only, or empty) yields no entry. */
  lemma ImagePiecesBlank(f: Flavor, s: string)
    requires ';' !in s && Strip(f, s) == ""
    ensures ImagePieces(f, s) == []
  {
    SplitNoSep(s, ';');
    CleanPiecesSingle(f, s);
  }

  /** One blank on each side of a text is stripped. */
  lemma StripPadded(f: Flavor, t: string)
    requires t != "" && Trimmed(f, t)
    ensures Strip(f, " " + t + " ") == t
  {
    var s := " " + t + " ";
    assert s[1..] == t + " ";
    assert TrimStart(f, s) == t + " ";
    assert (t + " ")[..|t|] == t;
    assert TrimEnd(f, t + " ") == TrimEnd(f, t);
    StripFixed(f, t);
  }

  /** A single entry with blanks around it is read as the entry alone. */
  lemma ImagePiecesPadded(f: Flavor, t: string)
    requires t != "" && ';' !in t && Trimmed(f, t)
    ensures ImagePieces(f, " " + t + " ") == [t]
  {
    StripPadded(f, t);
    assert ';' !in " " + t + " ";
    ImagePiecesOne(f, " " + t + " ");
  }

  /** An entry without blanks is read as itself. */
  lemma ImagePiecesSingle(f: Flavor, t: string)
    requires t != "" && ';' !in t && Trimmed(f, t)
    ensures ImagePieces(f, t) == [t]
  {
    StripFixed(f, t);
    ImagePiecesOne(f, t);
  }

  /** Entries keep their order: the pieces of `a;b` are those of `a` followed by those of `b`. */
  lemma ImagePiecesConcat(f: Flavor, a: string, b: string)
    ensures ImagePieces(f, a + ";" + b) == ImagePieces(f, a) + ImagePieces(f, b)
  {
    assert a + ";" + b == a + [';'] + b;
    SplitAround(a, b, ';');
    CleanPiecesAppend(f, SplitOn(a, ';'), SplitOn(b, ';'));
  }

  /** Re-splitting the `;`-join of the entries gives the same entries. */
  lemma ImagePiecesIdempotent(f: Flavor, s: string)
    ensures ImagePieces(f, Join(ImagePieces(f, s), ';')) == ImagePieces(f, s)
  {
    var xs := ImagePieces(f, s);
    if |xs| == 0 {
      ImagePiecesEmpty(f);
    } else {
      SplitJoin(xs, ';');
      CleanPiecesFixed(f, xs);
    }
  }
}

=== FILE: values.dfy ===
/**
 Value types shared by the converters and the renderer: an optional value
 (JavaScript's null/undefined, Python's None), the IEEE number a decimal
 parser hands back, and the JSON values a converted record is made of.
 */
module Values {

  /** None stands for JavaScript's `null`/`undefined` and Python's `None`. */
  datatype Option<+T> = None | Some(value: T) {
    function GetOr(default: T): T {
      match this
      case Some(v) => v
      case None => default
    }
  }

  /**
   The double-precision value a decimal parser produces. Only the finite case
   carries its value; the rounding of decimals to binary is not modelled.
   */
  datatype Float = Finite(value: real) | NaN | Infinity(negative: bool)

  /** The JSON values a converted record serialises to. */
  datatype Json =
    | JNull
    | JBool(b: bool)
    | JNumber(n: Float)
    | JString(s: string)
    | JArray(items: seq<Json>)

  /** `xs.map(f)`: `f` applied to each element, in order. */
  function Map<A, B>(f: A -> B, xs: seq<A>): (r: seq<B>)
    ensures |r| == |xs|
    ensures forall i :: 0 <= i < |xs| ==> r[i] == f(xs[i])
  {
    if |xs| == 0 then [] else [f(xs[0])] + Map(f, xs[1..])
  }

  /** Mapping distributes over concatenation. */
  lemma {:induction false} MapAppend<A, B>(f: A -> B, xs: seq<A>, ys: seq<A>)
    ensures Map(f, xs + ys) == Map(f, xs) + Map(f, ys)
  {
    if |xs| == 0 {
      assert xs + ys == ys;
    } else {
      assert (xs + ys)[1..] == xs[1..] + ys;
      MapAppend(f, xs[1..], ys);
    }
  }

  /** A loop that appends `f` of each element in turn builds `Map(f, xs)`. */
  method MapLoop<A, B>(f: A -> B, xs: seq<A>) returns (r: seq<B>)
    ensures r == Map(f, xs)
  {
    r := [];
    var i := 0;
    while i < |xs|
      invariant 0 <= i <= |xs|
      invariant r == Map(f, xs[..i])
    {
      MapAppend(f, xs[..i], [xs[i]]);
      assert xs[..i + 1] == xs[..i] + [xs[i]];
      r := r + [f(xs[i])];
      i := i + 1;
    }
    assert xs[..i] == xs;
  }

  /** `xs.filter(p)`: the elements satisfying `p`, in order. */
  function Filter<T>(p: T -> bool, xs: seq<T>): (r: seq<T>)
    ensures |r| <= |xs|
    ensures forall k :: 0 <= k < |r| ==> p(r[k])
  {
    if |xs| == 0 then []
    else (if p(xs[0]) then [xs[0]] else []) + Filter(p, xs[1..])
  }

  /** Filtering distributes over concatenation. */
  lemma {:induction false} FilterAppend<T>(p: T -> bool, xs: seq<T>, ys: seq<T>)
    ensures Filter(p, xs + ys) == Filter(p, xs) + Filter(p, ys)
  {
    if |xs| == 0 {
      assert xs + ys == ys;
    } else {
      assert (xs + ys)[0] == xs[0];
      assert (xs + ys)[1..] == xs[1..] + ys;
      FilterAppend(p, xs[1..], ys);
    }
  }

  /** A list whose elements all pass is its own filter. */
  lemma {:induction false} FilterAll<T>(p: T -> bool, xs: seq<T>)
    requires forall k :: 0 <= k < |xs| ==> p(xs[k])
    ensures Filter(p, xs) == xs
  {
    if |xs| > 0 {
      assert forall k :: 0 <= k < |xs[1..]| ==> xs[1..][k] == xs[k + 1];
      FilterAll(p, xs[1..]);
      assert xs == [xs[0]] + xs[1..];
    }
  }

  /** Whatever holds of every element holds of every element kept. */
  lemma {:induction false} FilterKeeps<T>(p: T -> bool, q: T -> bool, xs: seq<T>)
    requires forall k :: 0 <= k < |xs| ==> q(xs[k])
    ensures forall k :: 0 <= k < |Filter(p, xs)| ==> q(Filter(p, xs)[k])
  {
    if |xs| > 0 {
      assert forall k :: 0 <= k < |xs[1..]| ==> xs[1..][k] == xs[k + 1];
      FilterKeeps(p, q, xs[1..]);
      var head := if p(xs[0]) then [xs[0]] else [];
      var rest := Filter(p, xs[1..]);
      assert forall k :: 0 <= k < |rest| ==> (head + rest)[|head| + k] == rest[k];
    }
  }
}
